=== FILE: README.md ===
# Flight booker: a Dafny model of the booking back end

The system is an Android flight-booking application. Administrators upload
flights into a flight registry. Clients search for itineraries between two
airports on a date, sort the results by cost or by travel time, and book or
cancel itineraries. Each booking consumes one seat on every leg.

This project models the back end that does that work:

- the flight record and its seat counter (`backend/Flight.java`);
- the itinerary and its derived values, validity checks and leg-by-leg
  booking (`backend/Itinerary.java`);
- the depth-first route search, itinerary creation, the two insertion sorts,
  and booking and cancelling on a user (`backend/User.java`);
- the two keyed registries (`databases/FlightDatabase.java`,
  `databases/UserDatabase.java`);
- the date check of the search screen (`b07/cs/phase3/SearchActivity.java`).

Modelling choices:

- The source keeps each flight's `bookedSeats` inside a shared, mutable
  `Flight` object. Here a flight is an immutable value. Seat counts live in
  one map from flight number to seats booked (`Flights.Seats`), and a missing
  entry reads as 0, the constructor's starting value. Every itinerary holding
  a flight therefore sees the same count, which is what the object sharing
  gives the source.
- Date-times are `Timestamp(text, minutes)`. The text feeds the date-prefix
  comparisons the source makes on strings. The minute count feeds wait and
  travel times, which the source gets from `Calendar` in milliseconds or
  hours. Costs are integer cents.
- Operations that mutate in the source are pure functions returning the new
  state. In `GetFlights` and `SortByTravelTime` a reachable exception is
  `None`; the other throws are listed under "Left out".
- The route search has two forms. `PathFinder.Search` is a functional
  reference. `PathFinder.SearchWithStack` follows the source's loop with the
  shared `locations` list pushed and popped, and is proved equal to the
  reference. The search terminates because the set of airports not yet on the
  path shrinks at every descent.
- Java's truncating `/` and `%` on `long` (`Text.JavaDiv`, `Text.JavaRem`) and
  `String.valueOf` (`Text.IntToString`) are written out, so the `HH:MM`
  duration is modelled for negative durations too.
- The two insertion sorts are one generic `Sorting.InsertionSort` over a key
  function. It is proved to return a permutation, sorted, and stable: the
  items of each key keep their input order. That is the order the strict `<`
  in the source's inner loop produces.

Where the code does something surprising, the model follows the code:

- `isfull` compares with `==`, so a capacity lowered below the count is
  never full again (`Flights.OverCapacityNeverFull`).
- `cancelSeat` has no lower bound. On a flight with one seat left, an
  itinerary that repeats it books it once but cancels it twice
  (`Booking.RepeatedLegUnderflows`).
- The search returns round trips when origin and destination coincide,
  and it never passes through the destination before the last leg
  (`PathFinder.IsRoute`).
- `createItineraries` appends to the user's list and never clears it.
- The date check accepts `2019-02-30` and year `0000` and refuses every 31st.

## Model

| member | source | states |
|---|---|---|
| Flights.BookSeat | Phase3/app/src/main/java/backend/Flight.java:236-245 | booking succeeds exactly when the flight is not full; on success that flight's count rises by one; a refusal changes nothing; no other flight's count ever changes |
| Flights.CancelSeat | Phase3/app/src/main/java/backend/Flight.java:250-252 | the flight's count drops by one with no lower bound; every other flight is untouched |
| Flights.IsFull | Phase3/app/src/main/java/backend/Flight.java:229-231 | within capacity, full exactly when the count has reached the capacity; above capacity never full, because the test is equality |
| Flights.SameFlight | Phase3/app/src/main/java/backend/Flight.java:278-280 | a flight equals itself, and equal flights share their seat count in every ledger, since they have one flight number |
| Flights.WaitTime | Phase3/app/src/main/java/backend/Flight.java:215-222 | the wait is negative exactly when the next flight departs before this one arrives |
| Flights.BookingStaysWithinCapacity | Phase3/app/src/main/java/backend/Flight.java:229-245 | starting within capacity, any number of bookSeat calls keeps the count between 0 and numSeats; it grows by one per call until it reaches the capacity and then stays there |
| Flights.NewFlightIsEmpty | Phase3/app/src/main/java/backend/Flight.java:37-56 | a new flight has 0 seats booked and is full only when its capacity is 0 |
| Flights.CancelUndoesBook | Phase3/app/src/main/java/backend/Flight.java:236-252 | a successful bookSeat followed by cancelSeat restores every flight's count |
| Flights.OverCapacityNeverFull | Phase3/app/src/main/java/backend/Flight.java:229-245 | once the count exceeds the capacity, isfull is false and bookSeat keeps selling seats |
| Itineraries.SameRouteIsSameNumbers | Phase3/app/src/main/java/backend/Itinerary.java:282-293 | under `SameRoute`, the model of `equals`, two itineraries are equal exactly when their flight-number sequences are equal; the relation is reflexive, symmetric and transitive |
| Itineraries.TotalCost | Phase3/app/src/main/java/backend/Itinerary.java:56-62 | an empty itinerary costs 0, and non-negative leg costs give a non-negative total; with `TotalCostAppend` the total is the sum of the leg costs |
| Itineraries.TotalCostAppend | Phase3/app/src/main/java/backend/Itinerary.java:56-62 | a one-leg itinerary costs its flight's cost, and the total of two itineraries joined is the sum of their totals; with the empty case these fix the total as the sum of the leg costs |
| Itineraries.TravelTimeIsAirPlusGround | Phase3/app/src/main/java/backend/Itinerary.java:69-77 | first departure to last arrival equals the sum of the leg flying times plus every layover |
| Itineraries.ItineraryEnds | Phase3/app/src/main/java/backend/Itinerary.java:69-127 | a one-leg itinerary starts at the flight's origin on its departure date, ends at its destination and lasts its flying time; joining two itineraries takes the start and first departure date from the first, the end from the second, and adds the layover between them to the two travel times |
| Itineraries.DatePart | Phase3/app/src/main/java/backend/Itinerary.java:124-127 | the date part is the prefix of the departure text up to, and not including, the first space |
| Itineraries.HasValidWaitTimes | Phase3/app/src/main/java/backend/Itinerary.java:185-201 | true exactly when every consecutive layover lies between 30 and 360 minutes inclusive (0.5 to 6 hours) |
| Itineraries.ValidWaitsBoundGroundTime | Phase3/app/src/main/java/backend/Itinerary.java:185-201 | with valid layovers, an n-leg itinerary spends between (n-1)*30 and (n-1)*360 minutes on the ground |
| Itineraries.FlightsHaveRoom | Phase3/app/src/main/java/backend/Itinerary.java:208-218 | true exactly when no leg is full |
| Itineraries.BookFlights | Phase3/app/src/main/java/backend/Itinerary.java:223-228 | flights not on the itinerary keep their counts; each flight gains at most one seat per occurrence among the legs |
| Itineraries.CancelFlights | Phase3/app/src/main/java/backend/Itinerary.java:233-238 | each flight loses exactly one seat per occurrence among the legs |
| Itineraries.BookFlightsDistinct | Phase3/app/src/main/java/backend/Itinerary.java:208-228 | when no leg is full and the legs are distinct flights, every leg gains exactly one seat and nothing else changes |
| Itineraries.CancelFlightsUndoesBookFlights | Phase3/app/src/main/java/backend/Itinerary.java:223-238 | for distinct legs with room, cancelling after booking restores every count |
| Itineraries.DurationReadsBack | Phase3/app/src/main/java/backend/Itinerary.java:254-271 | under `FormatDuration`, the model of the `HH:MM` text, a non-negative duration renders as hours, ':' and exactly two minute digits; the digits read back as hours*60+minutes equal to the duration, with minutes below 60 |
| Itineraries.DurationExamples | Phase3/app/src/main/java/backend/Itinerary.java:254-271 | 300 minutes renders "05:00", 125 renders "02:05", and -90 renders "-1:-30" |
| Text.NatToString | Phase3/app/src/main/java/backend/Itinerary.java:263-264 | String.valueOf of a natural number is all digits, reads back as the number, and has no leading zero |
| Text.IntToString | Phase3/app/src/main/java/backend/Itinerary.java:263-264 | String.valueOf of a negative number is '-' followed by the digits of its magnitude |
| Text.JavaDiv | Phase3/app/src/main/java/backend/Itinerary.java:259-261 | b*q is the multiple of b nearest to a on the zero side, so q is the quotient truncated toward zero as Java's long division gives it |
| Text.JavaRem | Phase3/app/src/main/java/backend/Itinerary.java:259 | the remainder satisfies a == b*q + r and takes the sign of the dividend |
| Registry.FindIndex | Phase3/app/src/main/java/databases/FlightDatabase.java:85-115 | the index of the first item with the key, or -1 exactly when no item has it |
| Registry.Upsert | Phase3/app/src/main/java/databases/FlightDatabase.java:124-136 | adding overwrites an item with the same key in place or appends; afterwards the key finds the new item, every other key finds what it found before, and unique keys stay unique |
| Registry.RemoveKey | Phase3/app/src/main/java/databases/FlightDatabase.java:145-156 | removal reports true exactly when the key is present, and then the result is the store without the item at the first index with the key, the others in their order; otherwise the store is unchanged; under unique keys the key is gone and other lookups are kept |
| Registry.Lookup | Phase3/app/src/main/java/databases/FlightDatabase.java:184-195 | the lookup finds nothing exactly when no item has the key; otherwise it finds the item at the first index with it |
| FlightDatabase.FindFlightIndex | Phase3/app/src/main/java/databases/FlightDatabase.java:85-115 | the position of the first flight with the same number, or -1 exactly when none has it |
| FlightDatabase.AddItem | Phase3/app/src/main/java/databases/FlightDatabase.java:124-136 | the flight is stored, replacing one with its number in place or appended; getFlight then finds it and every other number finds what it found before |
| FlightDatabase.RemoveItem | Phase3/app/src/main/java/databases/FlightDatabase.java:145-156 | true exactly when a flight with that number was stored, and then the first such flight is gone and the others keep their order; false leaves the registry unchanged |
| FlightDatabase.GetItem | Phase3/app/src/main/java/databases/FlightDatabase.java:166-174 | null exactly for an out-of-range index, else the flight at that index |
| FlightDatabase.GetFlight | Phase3/app/src/main/java/databases/FlightDatabase.java:184-195 | null exactly when no stored flight has the number; otherwise a stored flight with that number, at the index findFlightIndex gives |
| FlightDatabase.Contains | Phase3/app/src/main/java/databases/FlightDatabase.java:261-272 | true exactly when some stored flight has the number, which is when getFlight finds one |
| FlightDatabase.GetFlightsOfOrigin | Phase3/app/src/main/java/databases/FlightDatabase.java:231-243 | lists exactly the stored flights leaving the origin |
| FlightDatabase.FlightsOfOriginCounts | Phase3/app/src/main/java/databases/FlightDatabase.java:231-243 | each flight leaving the origin is listed as often as it is stored |
| FlightDatabase.FlightsOfOriginInOrder | Phase3/app/src/main/java/databases/FlightDatabase.java:231-243 | the flights of an origin come in registry order: an empty registry gives none, one flight gives itself exactly when it leaves the origin, and the list of a joined registry is the two lists joined |
| FlightDatabase.GetFlights | Phase3/app/src/main/java/databases/FlightDatabase.java:207-222 | fails exactly when some stored departure text is shorter than 10 characters (substring throws); otherwise it lists exactly the stored flights with that origin, destination and first ten departure characters, in registry order |
| PathFinder.UnvisitedShrinks | Phase3/app/src/main/java/backend/User.java:281-285 | descending into a flight's landing airport not yet on the path strictly shrinks the set of airports left to visit, so the search terminates |
| PathFinder.SearchSound | Phase3/app/src/main/java/backend/User.java:261-297 | every path the search returns is a non-empty chain of registry flights from origin to destination, with no departure airport repeated and no stop at the destination or at an airport already on the path |
| PathFinder.SearchComplete | Phase3/app/src/main/java/backend/User.java:261-297 | every such chain is among the paths returned |
| PathFinder.FindRoutesAreSimplePaths | Phase3/app/src/main/java/backend/User.java:261-297 | a path is found from an empty locations list exactly when it is such a simple chain, and it starts at the origin and ends at the destination |
| PathFinder.RouteLegsDistinct | Phase3/app/src/main/java/backend/User.java:261-297 | with unique flight numbers in the registry, a found path never uses the same flight twice |
| PathFinder.WellformedHasNoDuplicates | Phase3/app/src/main/java/databases/FlightDatabase.java:124-136 | a registry with unique flight numbers, as addItem keeps it, holds no flight twice |
| PathFinder.SearchNoDuplicates | Phase3/app/src/main/java/backend/User.java:261-297 | from a registry holding no flight twice, the search returns no path twice |
| PathFinder.BranchFirstLeg | Phase3/app/src/main/java/backend/User.java:275-291 | every path found through a flight starts with that flight |
| PathFinder.ExploreFirstLeg | Phase3/app/src/main/java/backend/User.java:272-295 | every path the loop over a list of flights returns starts with one of those flights |
| PathFinder.LoopStep | Phase3/app/src/main/java/backend/User.java:272-295 | if the paths collected so far followed by the paths from flights k onward are the reference search's, appending the paths through flight k keeps that true for flights k+1 onward: the loop's invariant |
| PathFinder.SearchWithStack | Phase3/app/src/main/java/backend/User.java:261-297 | the loop with the pushed and popped locations list returns the reference search's paths and hands the list back unchanged |
| PathFinder.VisitFlight | Phase3/app/src/main/java/backend/User.java:274-294 | one loop pass, with the origin pushed, yields the paths through that flight and leaves the stack as it found it |
| Users.NewUser | Phase3/app/src/main/java/backend/User.java:44-58 | a new user has the given email and role, no search results, and no itinerary counts as booked by it |
| Users.NewUserCanBook | Phase3/app/src/main/java/backend/User.java:44-58 | a new user can book an itinerary exactly when every leg has room, and with non-negative capacities its empty bookings agree with an empty seat ledger |
| Users.CreateItineraries | Phase3/app/src/main/java/backend/User.java:306-321 | keeps the list already there and appends exactly the simple routes that are non-empty, depart on the date, have valid layovers and have room, in the order the search finds them; each starts at the origin and ends at the destination; with unique flight numbers none is appended twice and each has distinct legs; other fields are untouched |
| Users.WantedRoutesOnce | Phase3/app/src/main/java/backend/User.java:306-321 | with unique flight numbers, the routes kept after the date, layover and room filters contain no route twice |
| Sorting.InsertAllSorts | Phase3/app/src/main/java/backend/User.java:342-372 | inserting one item at a time after the items with key at most its own gives a permutation that is sorted and keeps each key's items in input order |
| Sorting.SortedRunsDetermine | Phase3/app/src/main/java/backend/User.java:342-372 | two sorted sequences with the same items per key, in the same order, are equal, so a stable sort's result is unique |
| Sorting.FindSlot | Phase3/app/src/main/java/backend/User.java:354-364 | the inner loop stops at the first placed item whose key is strictly greater, after every item whose key is not |
| Sorting.InsertionSort | Phase3/app/src/main/java/backend/User.java:342-372 | the result is a permutation of the input, non-decreasing by key, and stable |
| Sorting.SortByTotalCost | Phase3/app/src/main/java/backend/User.java:405-434 | the result is a permutation, non-decreasing by total cost, and keeps equal-cost itineraries in input order |
| Sorting.SortByTravelTime | Phase3/app/src/main/java/backend/User.java:342-372 | fails exactly when there are at least two itineraries and one is empty; otherwise a permutation, non-decreasing by travel time, stable for equal times |
| Booking.IsBooked | Phase3/app/src/main/java/backend/User.java:463-473 | true exactly when some booked itinerary has the same flights in the same order |
| Booking.FirstBooked | Phase3/app/src/main/java/backend/User.java:501-511 | the first booked itinerary equal to the given one, or -1 exactly when none is |
| Booking.IsBookedRespectsSameRoute | Phase3/app/src/main/java/backend/User.java:463-473 | equal itineraries are booked or not booked together |
| Booking.BookItinerary | Phase3/app/src/main/java/backend/User.java:480-496 | succeeds exactly when the itinerary is not booked and every leg has room; a refusal changes nothing; success appends it, leaves flights off it untouched, and with distinct legs books one seat on each |
| Booking.CancelItinerary | Phase3/app/src/main/java/backend/User.java:501-511 | does nothing when the itinerary is not booked; otherwise removes the first equal booked itinerary only and gives back one seat per occurrence of each of its flights |
| Booking.SecondBookingFails | Phase3/app/src/main/java/backend/User.java:463-496 | once an itinerary is booked, booking it or any equal itinerary again is refused and changes nothing |
| Booking.BookThenCancelRestores | Phase3/app/src/main/java/backend/User.java:480-511 | booking an itinerary of distinct flights and then cancelling it restores the booked list and every seat count |
| Booking.InitiallyConsistent | Phase3/app/src/main/java/backend/Flight.java:37-56 | with no bookings and non-negative capacities, the ledger agrees with the bookings |
| Booking.BookKeepsConsistent | Phase3/app/src/main/java/backend/User.java:480-496 | booking an itinerary of distinct registry flights, whether it succeeds or not, keeps every registry flight at or below capacity, with at least one seat per booked itinerary using it |
| Booking.BookNeverOversells | Phase3/app/src/main/java/backend/User.java:480-496 | booking any itinerary of registry flights, repeated legs included and whether it succeeds or not, leaves every registry flight at or below capacity |
| Booking.BookFlightsNeverOversells | Phase3/app/src/main/java/backend/Itinerary.java:223-228 | booking the legs one by one, each through bookSeat's full test, never takes a registry flight above its capacity |
| Booking.CancelKeepsConsistent | Phase3/app/src/main/java/backend/User.java:501-511 | cancelling keeps the same agreement |
| Booking.RepeatedLegUnderflows | Phase3/app/src/main/java/backend/Itinerary.java:223-238 | for an itinerary flying one single-seat flight twice, booking reaches 1 but cancelling reaches -1 |
| UserDatabase.FindUserIndex | Phase3/app/src/main/java/databases/UserDatabase.java:77-107 | the position of the first user with the same email, or -1 exactly when none has it |
| UserDatabase.AddItem | Phase3/app/src/main/java/databases/UserDatabase.java:116-128 | the user is stored, replacing one with its email in place or appended; getUser then finds it and every other email finds what it found before |
| UserDatabase.RemoveItem | Phase3/app/src/main/java/databases/UserDatabase.java:137-148 | true exactly when a user with that email was stored, and then the first such user is gone and the others keep their order; false leaves the registry unchanged |
| UserDatabase.GetItem | Phase3/app/src/main/java/databases/UserDatabase.java:159-168 | null exactly for an out-of-range index, else the user at that index |
| UserDatabase.GetUser | Phase3/app/src/main/java/databases/UserDatabase.java:176-188 | null exactly when no stored user has the email; otherwise a stored user with it, at the index findUserIndex gives |
| UserDatabase.Contains | Phase3/app/src/main/java/databases/UserDatabase.java:231-241 | true exactly when some stored user has the email, which is when getUser finds one |
| UserDatabase.GetAllClients | Phase3/app/src/main/java/databases/UserDatabase.java:195-205 | lists exactly the stored users that are not administrators |
| UserDatabase.GetAllAdmins | Phase3/app/src/main/java/databases/UserDatabase.java:212-222 | lists exactly the stored administrators |
| UserDatabase.ClientsAndAdminsPartition | Phase3/app/src/main/java/databases/UserDatabase.java:195-222 | clients and administrators together are every stored user, each as often as stored, and no user is in both lists |
| UserDatabase.ClientsAndAdminsInOrder | Phase3/app/src/main/java/databases/UserDatabase.java:195-222 | clients and administrators come in registry order: an empty registry gives none, one user lands in exactly the list its role picks, and the lists of a joined registry are the two lists joined |
| DateValidation.IsValidDate | Phase3/app/src/main/java/b07/cs/phase3/SearchActivity.java:199-229 | accepts exactly ten-character texts with dashes at positions 4 and 7, digits elsewhere, a month from 1 to 12 and a day from 1 to 30; the fields are read through Java's split, which on such text keeps all three |
| DateValidation.Split | Phase3/app/src/main/java/b07/cs/phase3/SearchActivity.java:218-219 | the raw pieces between separators: at least one, none containing the separator |
| DateValidation.SplitJoin | Phase3/app/src/main/java/b07/cs/phase3/SearchActivity.java:218-219 | joining the raw pieces with the separator gives the text back |
| DateValidation.DropTrailingEmpty | Phase3/app/src/main/java/b07/cs/phase3/SearchActivity.java:218-219 | the result is a prefix of the pieces, everything dropped is empty, and the last piece kept is not empty |
| DateValidation.JavaSplit | Phase3/app/src/main/java/b07/cs/phase3/SearchActivity.java:218-219 | Java's split: a text without the separator comes back whole; otherwise the raw pieces with every trailing empty piece dropped and nothing else changed |
| DateValidation.JavaSplitDropsTrailing | Phase3/app/src/main/java/b07/cs/phase3/SearchActivity.java:218-219 | "a-" splits into ["a"] |
| DateValidation.JavaSplitOnlySeparator | Phase3/app/src/main/java/b07/cs/phase3/SearchActivity.java:218-219 | "-" splits into no piece at all |
| DateValidation.JavaSplitKeepsLeading | Phase3/app/src/main/java/b07/cs/phase3/SearchActivity.java:218-219 | "-a" splits into ["", "a"]: leading empty pieces stay |
| DateValidation.SplitShapedDate | Phase3/app/src/main/java/b07/cs/phase3/SearchActivity.java:218-219 | on text of the date's shape, split("-") gives exactly the year, month and day fields |
| DateValidation.JavaSplitShapedDate | Phase3/app/src/main/java/b07/cs/phase3/SearchActivity.java:218-219 | Java's split("-") of a date-shaped text also gives exactly the three fields, since the day field is not empty |
| DateValidation.ShapeOfParts | Phase3/app/src/main/java/b07/cs/phase3/SearchActivity.java:200-215 | four digits, a dash, two digits, a dash and two digits pass the length and character checks and split back into those parts |
| DateValidation.FormatDateRoundTrip | Phase3/app/src/main/java/b07/cs/phase3/SearchActivity.java:199-229 | a zero-padded date with month 1-12 and day 1-30 is accepted, and its fields read back as the numbers written |
| DateValidation.AcceptsFebruaryThirtieth | Phase3/app/src/main/java/b07/cs/phase3/SearchActivity.java:222-227 | "2019-02-30" is accepted: the day bound is 30 in every month |
| DateValidation.AcceptsYearZero | Phase3/app/src/main/java/b07/cs/phase3/SearchActivity.java:218-227 | "0000-01-01" is accepted: the year field is never checked |
| DateValidation.RefusesThirtyFirstAndMonthThirteen | Phase3/app/src/main/java/b07/cs/phase3/SearchActivity.java:222-227 | "2019-01-31" and "2019-13-01" are refused |
| DateValidation.RefusesShortMonth | Phase3/app/src/main/java/b07/cs/phase3/SearchActivity.java:200-215 | "2019-1-01" is refused: the length and dash positions are fixed |

## Left out

- Calendar parsing of `YYYY-MM-DD HH:MM` text: a timestamp carries its text and the minute count it denotes, and the two are not tied together.
- Floating-point costs and hours: costs are integer cents and times are integer minutes. The layover window of 0.5 to 6 hours is 30 to 360 minutes, and sorting by travel time gives the same order in minutes as in hours.
- `String.format("%.2f")` of the total cost, and the remaining `toString` text apart from the `HH:MM` duration.
- JSON persistence (`save`, `load`, Gson), Android `Context` constructors and the static registries that `User` shares. Their side effects are not modelled either: the `User` constructor stores itself in the user registry and saves it.
- The Android activities other than the date check, CSV upload, login, and the `Driver` entry point.
- Setters and the getter/setter boilerplate of names, addresses and card details. A capacity edit appears only as a precondition (`Flights.OverCapacityNeverFull`).
- `Client` and `Admin` subclasses: a user's role is the `isAdmin` flag.
- Concurrency: the source is single-threaded UI code.
- Itineraries.DatePart: `split(" ")[0]` throws on a departure text made only of spaces; the model returns the empty text there instead.
- Itineraries.TravelTime: the source throws on an empty itinerary; the model makes non-emptiness a precondition. `Sorting.SortByTravelTime` models the throw as `None`.
- Booking.Consistent: the ledger invariant is stated for one user's booked list. With several users, each flight's count is the sum over their lists, which is not modelled.
- UserDatabase.RemoveItem: that other lookups are preserved is stated only for a registry with unique emails. The same holds for `FlightDatabase.RemoveItem` with unique numbers.
- Booking.BookItinerary: "one seat per leg" is stated only for itineraries with distinct legs. With a repeated leg the count rises by at most one per occurrence (`Itineraries.BookFlights`), and `Booking.RepeatedLegUnderflows` shows the consequence.
- `ArrayList.remove(Object)` and `indexOf` compare by identity, because `Itinerary.equals(Itinerary)` is an overload rather than an override. The model removes by index, at the first equal itinerary found. It is the same itinerary the source's loop finds.
- The source mutates shared `Flight` objects, and Gson copies break that sharing after a reload. The model keeps a single seat ledger keyed by flight number, so copies with the same number share their count.
- PathFinder.Search, PathFinder.Explore and PathFinder.Branch carry no contract of their own: what they return is stated by `SearchSound`, `SearchComplete`, `SearchNoDuplicates`, `BranchFirstLeg` and `ExploreFirstLeg`.
- Itineraries.StartOrigin, Itineraries.FinalDestination and Itineraries.FirstDepartureDate: `flights.get(0)` throws on an empty itinerary; the model makes non-emptiness a precondition.
- Calendar reads: `Calendar.getInstance()` keeps the current seconds and milliseconds when only the date, hour and minute are set, so two parsed times can differ by a fraction of a second. The exact 30- and 360-minute layover bounds and the `"05:00"` rendering hold for whole minutes, as the model counts them.
- FlightDatabase.AddItem: replacing a stored flight installs a new `Flight` object whose `bookedSeats` is 0 (`Flight.java:47`). The model's ledger is keyed by flight number and keeps the old count.
- Text lengths: `length()`, `charAt` and `substring` count UTF-16 code units; the model counts characters of `seq<char>`, which agrees for the ASCII dates and flight data the system uses.
- DateValidation.Split drops nothing; the trailing-empty rule of Java's `split` is `JavaSplit`, and only `JavaSplit` is used by the date check.
- Itineraries.SameRoute, Itineraries.FormatDuration and Itineraries.PadTwo carry no contract of their own: what they compute is stated by `SameRouteIsSameNumbers`, `DurationReadsBack` and `DurationExamples`.
- Booking.BookKeepsConsistent: the whole ledger invariant, including one seat per booked itinerary using a flight, is stated only for itineraries of distinct flights, because `Consistent` asks every booked itinerary to have distinct legs. The no-oversell half holds for every itinerary of registry flights and is `Booking.BookNeverOversells`.

=== FILE: booking.dfy ===
/** Booking and cancelling whole itineraries for one user (`isBooked`,
    `bookItinerary`, `cancelItinerary` in backend/User.java). The user's
    booked list is a sequence; seat counts are the shared `Seats` ledger. */
module Booking {
  import opened Flights
  import opened Itineraries
  import opened FlightDatabase

  /** `isBooked`: some booked itinerary has the same flights, in order. */
  function IsBooked(booked: seq<Itinerary>, it: Itinerary): (r: bool)
    ensures r <==> exists i :: 0 <= i < |booked| && SameRoute(it, booked[i])
  {
    FirstBooked(booked, it) >= 0
  }

  /** The position of the first booked itinerary equal to `it`, or -1: the
      one the loop in `cancelItinerary` stops at. */
  function FirstBooked(booked: seq<Itinerary>, it: Itinerary): (r: int)
    ensures -1 <= r < |booked|
    ensures r >= 0 ==> SameRoute(it, booked[r])
    ensures r >= 0 ==> forall j :: 0 <= j < r ==> !SameRoute(it, booked[j])
    ensures r == -1 ==> forall j :: 0 <= j < |booked| ==> !SameRoute(it, booked[j])
  {
    if booked == [] then -1
    else if SameRoute(it, booked[0]) then 0
    else
      var r := FirstBooked(booked[1..], it);
      assert forall j :: 0 <= j < |booked| - 1 ==> booked[1..][j] == booked[j + 1];
      if r < 0 then -1 else r + 1
  }

  /** Whether an itinerary is booked depends only on its flight numbers. */
  lemma IsBookedRespectsSameRoute(booked: seq<Itinerary>, a: Itinerary, b: Itinerary)
    requires SameRoute(a, b)
    ensures IsBooked(booked, a) == IsBooked(booked, b)
  {
    SameRouteIsSameNumbers(a, b);
    forall c ensures SameRoute(a, c) == SameRoute(b, c) {
      SameRouteIsSameNumbers(a, c);
      SameRouteIsSameNumbers(b, c);
    }
  }

  /** `bookItinerary`: refuse an itinerary already booked or with a full
      leg; otherwise record it and book a seat on every leg. */
  function BookItinerary(seats: Seats, booked: seq<Itinerary>, it: Itinerary)
    : (r: (Seats, seq<Itinerary>, bool))
    ensures r.2 <==> !IsBooked(booked, it) && FlightsHaveRoom(seats, it)
    ensures !r.2 ==> r.0 == seats && r.1 == booked
    ensures r.2 ==> r.1 == booked + [it] && IsBooked(r.1, it)
    ensures r.2 ==> forall n :: n !in Numbers(it) ==> Booked(r.0, n) == Booked(seats, n)
    ensures r.2 && DistinctLegs(it) ==>
              forall n :: n in Numbers(it) ==> Booked(r.0, n) == Booked(seats, n) + 1
  {
    if IsBooked(booked, it) then (seats, booked, false)
    else if !FlightsHaveRoom(seats, it) then (seats, booked, false)
    else
      BookingDistinctLegs(seats, it);
      assert SameRoute(it, (booked + [it])[|booked|]);
      (BookFlights(seats, it), booked + [it], true)
  }

  lemma BookingDistinctLegs(seats: Seats, it: Itinerary)
    requires FlightsHaveRoom(seats, it)
    ensures DistinctLegs(it) ==>
              forall n :: n in Numbers(it) ==> Booked(BookFlights(seats, it), n) == Booked(seats, n) + 1
  {
    if DistinctLegs(it) {
      BookFlightsDistinct(seats, it);
    }
  }

  /** `cancelItinerary`: remove the first booked itinerary equal to `it`
      and give back a seat on each of ITS legs; nothing happens when none
      is booked. */
  function CancelItinerary(seats: Seats, booked: seq<Itinerary>, it: Itinerary)
    : (r: (Seats, seq<Itinerary>))
    ensures !IsBooked(booked, it) ==> r == (seats, booked)
    ensures IsBooked(booked, it) ==>
              |r.1| == |booked| - 1
              && exists i :: 0 <= i < |booked| && SameRoute(it, booked[i])
                             && (forall j :: 0 <= j < i ==> !SameRoute(it, booked[j]))
                             && r.1 == booked[..i] + booked[i + 1..]
    ensures IsBooked(booked, it) ==>
              forall n :: Booked(r.0, n) == Booked(seats, n) - multiset(Numbers(it))[n]
  {
    var i := FirstBooked(booked, it);
    if i < 0 then (seats, booked)
    else
      SameRouteIsSameNumbers(it, booked[i]);
      (CancelFlights(seats, booked[i]), booked[..i] + booked[i + 1..])
  }

  /** A booked itinerary cannot be booked again, under any copy with the
      same flights, and the refusal changes nothing. */
  lemma SecondBookingFails(seats: Seats, booked: seq<Itinerary>, it: Itinerary, again: Itinerary)
    requires BookItinerary(seats, booked, it).2
    requires SameRoute(again, it)
    ensures var (s, b, _) := BookItinerary(seats, booked, it);
            BookItinerary(s, b, again) == (s, b, false)
  {
    var (s, b, _) := BookItinerary(seats, booked, it);
    IsBookedRespectsSameRoute(b, again, it);
  }

  /** Booking an itinerary of distinct flights and then cancelling it
      gives back the booked list and every seat count. */
  lemma BookThenCancelRestores(seats: Seats, booked: seq<Itinerary>, it: Itinerary)
    requires !IsBooked(booked, it) && FlightsHaveRoom(seats, it)
    requires DistinctLegs(it)
    ensures var (s, b, ok) := BookItinerary(seats, booked, it);
            var (s2, b2) := CancelItinerary(s, b, it);
            && ok && b2 == booked
            && forall n :: Booked(s2, n) == Booked(seats, n)
  {
    var (s, b, ok) := BookItinerary(seats, booked, it);
    assert FirstBooked(b, it) == |booked| by {
      assert b[|booked|] == it;
      SameRouteIsSameNumbers(it, it);
    }
    assert b[..|booked|] + b[|booked| + 1..] == booked;
    CancelFlightsUndoesBookFlights(seats, it);
  }

  /** How many booked itineraries use flight `n`. */
  function Reserved(booked: seq<Itinerary>, n: FlightNumber): nat
  {
    if booked == [] then 0
    else Reserved(booked[..|booked| - 1], n)
         + (if n in Numbers(booked[|booked| - 1]) then 1 else 0)
  }

  lemma {:induction false} ReservedAppend(a: seq<Itinerary>, b: seq<Itinerary>, n: FlightNumber)
    ensures Reserved(a + b, n) == Reserved(a, n) + Reserved(b, n)
    decreases |b|
  {
    if b == [] {
      assert a + b == a;
    } else {
      assert (a + b)[..|a + b| - 1] == a + b[..|b| - 1];
      ReservedAppend(a, b[..|b| - 1], n);
    }
  }

  /** The ledger agrees with one user's bookings over a registry: every
      booked itinerary is made of distinct registry flights, and each
      registry flight has at least one seat booked per booked itinerary
      using it and never more seats booked than it has. */
  ghost predicate Consistent(db: Db, seats: Seats, booked: seq<Itinerary>)
  {
    && (forall i :: 0 <= i < |booked| ==> DistinctLegs(booked[i]))
    && (forall i, j :: 0 <= i < |booked| && 0 <= j < |booked[i]| ==> booked[i][j] in db)
    && (forall f :: f in db ==> Reserved(booked, f.number) <= Booked(seats, f.number) <= f.numSeats)
  }

  /** A fresh ledger with no bookings is consistent when no capacity is
      negative. */
  lemma InitiallyConsistent(db: Db)
    requires forall f :: f in db ==> f.numSeats >= 0
    ensures Consistent(db, map[], [])
  {
  }

  /** In a registry with unique numbers the registry flight numbered like
      a registry leg is that leg. */
  lemma SameNumberSameFlight(db: Db, f: Flight, g: Flight)
    requires Wellformed(db) && f in db && g in db && f.number == g.number
    ensures f == g
  {
    var i :| 0 <= i < |db| && db[i] == f;
    var j :| 0 <= j < |db| && db[j] == g;
  }

  /** Booking an itinerary of distinct registry flights keeps the ledger
      consistent, whether it succeeds or not. The body takes the legs of
      the appended itinerary and then one registry flight at a time; the
      solver does not close the whole invariant in one step within its
      resource budget. */
  lemma BookKeepsConsistent(db: Db, seats: Seats, booked: seq<Itinerary>, it: Itinerary)
    requires Wellformed(db) && Consistent(db, seats, booked)
    requires DistinctLegs(it) && forall j :: 0 <= j < |it| ==> it[j] in db
    ensures var (s, b, _) := BookItinerary(seats, booked, it);
            Consistent(db, s, b)
  {
    var (s, b, ok) := BookItinerary(seats, booked, it);
    if ok {
      assert s == BookFlights(seats, it) && b == booked + [it];
      AppendKeepsLegs(db, booked, it);
      forall f | f in db
        ensures Reserved(b, f.number) <= Booked(s, f.number) <= f.numSeats
      {
        BookKeepsFlightCount(db, seats, booked, it, f);
      }
    }
  }

  /** Booking any itinerary of registry flights, repeated legs included,
      never oversells: whether it succeeds or not, every registry flight
      stays at or below capacity. */
  lemma BookNeverOversells(db: Db, seats: Seats, booked: seq<Itinerary>, it: Itinerary)
    requires Wellformed(db) && forall j :: 0 <= j < |it| ==> it[j] in db
    requires forall f :: f in db ==> Booked(seats, f.number) <= f.numSeats
    ensures var (s, _, _) := BookItinerary(seats, booked, it);
            forall f :: f in db ==> Booked(s, f.number) <= f.numSeats
  {
    var (s, b, ok) := BookItinerary(seats, booked, it);
    if ok {
      BookFlightsNeverOversells(db, seats, it);
    }
  }

  /** `bookFlights` leg by leg: a leg numbered like a registry flight is
      that flight, and `bookSeat` refuses it once it is full. */
  lemma {:induction false} BookFlightsNeverOversells(db: Db, seats: Seats, it: Itinerary)
    requires Wellformed(db) && forall j :: 0 <= j < |it| ==> it[j] in db
    requires forall f :: f in db ==> Booked(seats, f.number) <= f.numSeats
    ensures forall f :: f in db ==> Booked(BookFlights(seats, it), f.number) <= f.numSeats
    decreases |it|
  {
    if it != [] {
      var next := BookSeat(seats, it[0]).0;
      forall f | f in db
        ensures Booked(next, f.number) <= f.numSeats
      {
        if f.number == it[0].number {
          SameNumberSameFlight(db, it[0], f);
        }
      }
      assert forall j :: 0 <= j < |it[1..]| ==> it[1..][j] == it[j + 1];
      BookFlightsNeverOversells(db, next, it[1..]);
    }
  }

  /** Appending an itinerary of distinct registry flights keeps every
      booked itinerary's legs distinct and in the registry. */
  lemma AppendKeepsLegs(db: Db, booked: seq<Itinerary>, it: Itinerary)
    requires forall k :: 0 <= k < |booked| ==> DistinctLegs(booked[k])
    requires forall k, j :: 0 <= k < |booked| && 0 <= j < |booked[k]| ==> booked[k][j] in db
    requires DistinctLegs(it) && forall j :: 0 <= j < |it| ==> it[j] in db
    ensures var b := booked + [it];
            && (forall k :: 0 <= k < |b| ==> DistinctLegs(b[k]))
            && (forall k, j :: 0 <= k < |b| && 0 <= j < |b[k]| ==> b[k][j] in db)
  {
    var b := booked + [it];
    assert forall k :: 0 <= k < |b| ==> b[k] == if k < |booked| then booked[k] else it;
  }

  /** One registry flight's counts after booking an itinerary of distinct
      registry flights with room. */
  lemma BookKeepsFlightCount(db: Db, seats: Seats, booked: seq<Itinerary>, it: Itinerary, f: Flight)
    requires Wellformed(db) && f in db
    requires Reserved(booked, f.number) <= Booked(seats, f.number) <= f.numSeats
    requires DistinctLegs(it) && FlightsHaveRoom(seats, it)
    requires forall j :: 0 <= j < |it| ==> it[j] in db
    ensures Reserved(booked + [it], f.number) <= Booked(BookFlights(seats, it), f.number) <= f.numSeats
  {
    var n := f.number;
    ReservedSnoc(booked, it, n);
    BookFlightsDistinct(seats, it);
    if n in Numbers(it) {
      LegBelowCapacity(db, seats, it, f);
    }
  }

  /** Recording one more itinerary adds one for each flight it uses. */
  lemma ReservedSnoc(booked: seq<Itinerary>, it: Itinerary, n: FlightNumber)
    ensures Reserved(booked + [it], n) == Reserved(booked, n) + (if n in Numbers(it) then 1 else 0)
  {
    var b := booked + [it];
    assert b[..|b| - 1] == booked;
  }

  /** A registry flight on an itinerary with room has a free seat. */
  lemma LegBelowCapacity(db: Db, seats: Seats, it: Itinerary, f: Flight)
    requires Wellformed(db) && f in db && Booked(seats, f.number) <= f.numSeats
    requires FlightsHaveRoom(seats, it) && forall j :: 0 <= j < |it| ==> it[j] in db
    requires f.number in Numbers(it)
    ensures Booked(seats, f.number) < f.numSeats
  {
    var j :| 0 <= j < |it| && Numbers(it)[j] == f.number;
    SameNumberSameFlight(db, it[j], f);
    assert !IsFull(seats, it[j]);
  }

  /** Cancelling keeps the ledger consistent. */
  lemma CancelKeepsConsistent(db: Db, seats: Seats, booked: seq<Itinerary>, it: Itinerary)
    requires Consistent(db, seats, booked)
    ensures var (s, b) := CancelItinerary(seats, booked, it);
            Consistent(db, s, b)
  {
    var i := FirstBooked(booked, it);
    if i >= 0 {
      var (s, b) := CancelItinerary(seats, booked, it);
      assert s == CancelFlights(seats, booked[i]) && b == booked[..i] + booked[i + 1..];
      RemoveKeepsLegs(db, booked, i);
      forall f | f in db
        ensures Reserved(b, f.number) <= Booked(s, f.number) <= f.numSeats
      {
        CancelKeepsFlightCount(seats, booked, i, f);
      }
    }
  }

  /** Removing one booked itinerary keeps the others' legs distinct and in
      the registry. */
  lemma RemoveKeepsLegs(db: Db, booked: seq<Itinerary>, i: int)
    requires 0 <= i < |booked|
    requires forall k :: 0 <= k < |booked| ==> DistinctLegs(booked[k])
    requires forall k, j :: 0 <= k < |booked| && 0 <= j < |booked[k]| ==> booked[k][j] in db
    ensures var b := booked[..i] + booked[i + 1..];
            && (forall k :: 0 <= k < |b| ==> DistinctLegs(b[k]))
            && (forall k, j :: 0 <= k < |b| && 0 <= j < |b[k]| ==> b[k][j] in db)
  {
    var b := booked[..i] + booked[i + 1..];
    assert forall k :: 0 <= k < |b| ==> b[k] == (if k < i then booked[k] else booked[k + 1]);
  }

  /** One flight's counts after removing the booked itinerary at `i` and
      cancelling its legs. */
  lemma CancelKeepsFlightCount(seats: Seats, booked: seq<Itinerary>, i: int, f: Flight)
    requires 0 <= i < |booked| && DistinctLegs(booked[i])
    requires Reserved(booked, f.number) <= Booked(seats, f.number) <= f.numSeats
    ensures var b := booked[..i] + booked[i + 1..];
            var s := CancelFlights(seats, booked[i]);
            Reserved(b, f.number) <= Booked(s, f.number) <= f.numSeats
  {
    var gone := booked[i];
    var n := f.number;
    assert booked == (booked[..i] + [gone]) + booked[i + 1..];
    ReservedAppend(booked[..i] + [gone], booked[i + 1..], n);
    ReservedAppend(booked[..i], [gone], n);
    ReservedAppend(booked[..i], booked[i + 1..], n);
    assert [gone][..0] == [];
    assert Reserved([gone], n) == (if n in Numbers(gone) then 1 else 0);
    DistinctCountsOnce(gone, n);
  }

  /** The source's seat ledger is only sound for distinct legs: an
      itinerary that repeats a one-seat flight books it once (the second
      `bookSeat` is refused and ignored) but cancelling gives two seats
      back, leaving the count at -1. */
  lemma RepeatedLegUnderflows(f: Flight)
    requires f.numSeats == 1
    ensures var (s, b, ok) := BookItinerary(map[], [], [f, f]);
            && ok && Booked(s, f.number) == 1
            && Booked(CancelItinerary(s, b, [f, f]).0, f.number) == -1
  {
    var it := [f, f];
    assert Numbers(it) == [f.number, f.number];
    assert multiset(Numbers(it))[f.number] == 2;
    var s1 := BookSeat(map[], f).0;
    assert BookSeat(s1, f).0 == s1;
    assert BookFlights(map[], it) == BookFlights(s1, [f]);
    assert BookFlights(s1, [f]) == BookFlights(BookSeat(s1, f).0, []);
  }
}

=== FILE: date_validation.dfy ===
/** The departure-date check of the search screen (`isValidDate` in
    b07/cs/phase3/SearchActivity.java): `YYYY-MM-DD`, digits everywhere but
    the two dashes, a month from 1 to 12 and a day from 1 to 30. The year
    is never looked at and the day bound is the same for every month. */
module DateValidation {
  import opened Text

  /** Ten characters, dashes at positions 4 and 7, digits elsewhere. */
  predicate DateShape(s: string)
  {
    |s| == 10 && forall i :: 0 <= i < 10 ==> if i == 4 || i == 7 then s[i] == '-' else IsDigit(s[i])
  }

  function Year(s: string): nat
    requires DateShape(s)
  {
    assert forall i :: 0 <= i < 4 ==> s[..4][i] == s[i];
    ValueOf(s[..4])
  }

  function Month(s: string): nat
    requires DateShape(s)
  {
    assert forall i :: 0 <= i < 2 ==> s[5..7][i] == s[i + 5];
    ValueOf(s[5..7])
  }

  function Day(s: string): nat
    requires DateShape(s)
  {
    assert forall i :: 0 <= i < 2 ==> s[8..][i] == s[i + 8];
    ValueOf(s[8..])
  }

  /** What the check accepts, stated on the text itself. */
  predicate ValidDate(s: string)
  {
    DateShape(s) && 1 <= Month(s) <= 12 && 1 <= Day(s) <= 30
  }

  /** The position of the first `c` in `s`, or -1. */
  function IndexOf(s: string, c: char): (r: int)
    ensures -1 <= r < |s|
    ensures r >= 0 ==> s[r] == c && c !in s[..r]
    ensures r == -1 ==> c !in s
  {
    if s == [] then -1
    else if s[0] == c then 0
    else
      var r := IndexOf(s[1..], c);
      if r < 0 then -1
      else
        assert s[..r + 1] == [s[0]] + s[1..][..r];
        r + 1
  }

  /** The first `c` sits at `j` when `j` holds one and nothing before it
      does. */
  lemma IndexOfIs(s: string, c: char, j: int)
    requires 0 <= j < |s| && s[j] == c && c !in s[..j]
    ensures IndexOf(s, c) == j
  {
    var r := IndexOf(s, c);
    assert s[j] in s;
  }

  /** `split` before Java drops trailing empty pieces: the pieces of `s`
      between the occurrences of `c`, in order, empty ones included. */
  function Split(s: string, c: char): (r: seq<string>)
    ensures |r| >= 1
    ensures forall i :: 0 <= i < |r| ==> c !in r[i]
    decreases |s|
  {
    var i := IndexOf(s, c);
    if i < 0 then [s] else [s[..i]] + Split(s[i + 1..], c)
  }

  /** The pieces glued back together, `c` between each two. */
  function Join(parts: seq<string>, c: char): string
    requires |parts| >= 1
  {
    if |parts| == 1 then parts[0] else parts[0] + [c] + Join(parts[1..], c)
  }

  /** Joining the pieces with the separator gives the text back: the
      pieces are exactly the text between the separators. */
  lemma {:induction false} SplitJoin(s: string, c: char)
    ensures Join(Split(s, c), c) == s
    decreases |s|
  {
    var i := IndexOf(s, c);
    if i >= 0 {
      var rest := Split(s[i + 1..], c);
      SplitJoin(s[i + 1..], c);
      assert ([s[..i]] + rest)[1..] == rest;
      assert s == s[..i] + [c] + s[i + 1..];
    }
  }

  /** The pieces without the empty ones at the end. */
  function DropTrailingEmpty(parts: seq<string>): (r: seq<string>)
    ensures r <= parts
    ensures forall i :: |r| <= i < |parts| ==> parts[i] == ""
    ensures |r| > 0 ==> r[|r| - 1] != ""
  {
    if parts == [] then []
    else if parts[|parts| - 1] == "" then DropTrailingEmpty(parts[..|parts| - 1])
    else parts
  }

  /** Java's `String.split` on a one-character separator: a text without
      the separator is returned whole (even when empty); otherwise the
      pieces between separators, with every trailing empty piece dropped,
      so `"a-"` gives `["a"]` and `"-"` gives no piece at all. */
  function JavaSplit(s: string, c: char): (r: seq<string>)
    ensures c !in s ==> r == [s]
    ensures forall i :: 0 <= i < |r| ==> c !in r[i]
    ensures c in s ==> r <= Split(s, c)
                       && (forall i :: |r| <= i < |Split(s, c)| ==> Split(s, c)[i] == "")
                       && (|r| > 0 ==> r[|r| - 1] != "")
  {
    if c !in s then [s] else DropTrailingEmpty(Split(s, c))
  }

  /** A trailing empty piece is dropped. */
  lemma JavaSplitDropsTrailing()
    ensures JavaSplit("a-", '-') == ["a"]
  {
    IndexOfIs("a-", '-', 1);
    assert "a-"[..1] == "a" && "a-"[2..] == "";
    assert Split("a-", '-') == ["a", ""];
    assert ["a", ""][..1] == ["a"];
  }

  /** A text that is only the separator gives no piece at all. */
  lemma JavaSplitOnlySeparator()
    ensures JavaSplit("-", '-') == []
  {
    IndexOfIs("-", '-', 0);
    assert "-"[1..] == "";
    assert Split("-", '-') == ["", ""];
  }

  /** A leading empty piece is kept. */
  lemma JavaSplitKeepsLeading()
    ensures JavaSplit("-a", '-') == ["", "a"]
  {
    IndexOfIs("-a", '-', 0);
    assert "-a"[1..] == "a";
    assert Split("-a", '-') == ["", "a"];
  }

  /** Splitting at the first separator. */
  lemma SplitAtFirst(s: string, c: char, i: int)
    requires 0 <= i < |s| && s[i] == c && c !in s[..i]
    ensures Split(s, c) == [s[..i]] + Split(s[i + 1..], c)
  {
    IndexOfIs(s, c, i);
  }

  /** The year, month and day fields hold no dash. */
  lemma NoDashIn(s: string, lo: int, hi: int)
    requires DateShape(s)
    requires (lo, hi) == (0, 4) || (lo, hi) == (5, 7) || (lo, hi) == (8, 10)
    ensures '-' !in s[lo..hi]
  {
    forall i | lo <= i < hi ensures s[i] != '-' {
      assert IsDigit(s[i]);
    }
    assert forall x :: x in s[lo..hi] ==> exists i :: lo <= i < hi && s[i] == x;
  }

  /** On a text of the date's shape `split("-")` yields exactly the year,
      month and day fields. */
  lemma SplitShapedDate(s: string)
    requires DateShape(s)
    ensures Split(s, '-') == [s[..4], s[5..7], s[8..]]
  {
    var t, u := s[5..], s[8..];
    NoDashIn(s, 0, 4);
    NoDashIn(s, 5, 7);
    NoDashIn(s, 8, 10);
    assert s[..4] == s[0..4] && t[..2] == s[5..7] && t[3..] == u && u == s[8..10];
    SplitAtFirst(s, '-', 4);
    SplitAtFirst(t, '-', 2);
    assert Split(u, '-') == [u];
  }

  /** Java's `split("-")` keeps all three fields of a date-shaped text: the
      last one is not empty. */
  lemma JavaSplitShapedDate(s: string)
    requires DateShape(s)
    ensures JavaSplit(s, '-') == [s[..4], s[5..7], s[8..]]
  {
    assert s[4] == '-';
    SplitShapedDate(s);
    assert |s[8..]| == 2;
  }

  /** `isValidDate` as written: the length test, the character loop, then
      the month and day read from the second and third `-` fields. */
  method IsValidDate(date: string) returns (r: bool)
    ensures r <==> ValidDate(date)
  {
    if |date| != 10 {
      return false;
    }
    var i := 0;
    while i < |date|
      invariant 0 <= i <= |date|
      invariant forall j :: 0 <= j < i ==>
                  if j == 4 || j == 7 then date[j] == '-' else IsDigit(date[j])
    {
      if i == 4 || i == 7 {
        if date[i] != '-' {
          return false;
        }
      } else if !IsDigit(date[i]) {
        return false;
      }
      i := i + 1;
    }
    var fields := JavaSplit(date, '-');
    JavaSplitShapedDate(date);
    var month := Month(date);
    var day := Day(date);
    assert month == ValueOf(fields[1]) && day == ValueOf(fields[2]);
    if month > 12 || month <= 0 {
      return false;
    }
    if day > 30 || day <= 0 {
      return false;
    }
    return true;
  }

  /** Left-pad with zeros to width `w`. */
  function PadZeros(s: string, w: nat): (r: string)
    requires AllDigits(s)
    ensures AllDigits(r) && ValueOf(r) == ValueOf(s)
    ensures |r| == if |s| >= w then |s| else w
    decreases w - |s|
  {
    if |s| >= w then s
    else
      ValueOfLeadingZero(s);
      PadZeros("0" + s, w)
  }

  function Pow10(k: nat): nat
  {
    if k == 0 then 1 else 10 * Pow10(k - 1)
  }

  /** A number below 10^k takes at most k digits. */
  lemma {:induction false} NatToStringFits(n: nat, k: nat)
    requires 1 <= k && n < Pow10(k)
    ensures |NatToString(n)| <= k
    decreases k
  {
    if n >= 10 {
      assert k >= 2;
      NatToStringFits(n / 10, k - 1);
      assert NatToString(n) == NatToString(n / 10) + [DigitChar(n % 10)];
    }
  }

  /** The text of a calendar date, zero-padded. */
  function FormatDate(y: nat, m: nat, d: nat): (r: string)
    requires y < 10000 && m < 100 && d < 100
  {
    NatToStringFits(y, 4);
    NatToStringFits(m, 2);
    NatToStringFits(d, 2);
    PadZeros(NatToString(y), 4) + "-" + PadZeros(NatToString(m), 2) + "-"
      + PadZeros(NatToString(d), 2)
  }

  /** Four digits, a dash, two digits, a dash and two digits make text of
      the date's shape whose fields are the three parts. */
  lemma ShapeOfParts(ys: string, ms: string, ds: string)
    requires |ys| == 4 && |ms| == 2 && |ds| == 2
    requires AllDigits(ys) && AllDigits(ms) && AllDigits(ds)
    ensures DateShape(ys + "-" + ms + "-" + ds)
    ensures var s := ys + "-" + ms + "-" + ds;
            s[..4] == ys && s[5..7] == ms && s[8..] == ds
  {
    var s := ys + "-" + ms + "-" + ds;
    forall i | 0 <= i < 10
      ensures if i == 4 || i == 7 then s[i] == '-' else IsDigit(s[i])
    {
      if i < 4 { assert s[i] == ys[i]; }
      else if 4 < i < 7 { assert s[i] == ms[i - 5]; }
      else if i > 7 { assert s[i] == ds[i - 8]; }
    }
  }

  /** Formatting a date with a month of 1-12 and a day of 1-30 gives text
      the check accepts, and the fields read back as the numbers formatted. */
  lemma FormatDateRoundTrip(y: nat, m: nat, d: nat)
    requires y < 10000 && 1 <= m <= 12 && 1 <= d <= 30
    ensures ValidDate(FormatDate(y, m, d))
    ensures Year(FormatDate(y, m, d)) == y
    ensures Month(FormatDate(y, m, d)) == m
    ensures Day(FormatDate(y, m, d)) == d
  {
    NatToStringFits(y, 4);
    NatToStringFits(m, 2);
    NatToStringFits(d, 2);
    var ys, ms, ds := PadZeros(NatToString(y), 4), PadZeros(NatToString(m), 2),
                      PadZeros(NatToString(d), 2);
    assert FormatDate(y, m, d) == ys + "-" + ms + "-" + ds;
    ShapeOfParts(ys, ms, ds);
  }

  /** The check accepts the 30th of February, whatever the year. */
  lemma AcceptsFebruaryThirtieth()
    ensures ValidDate("2019-02-30")
  {
    var s := "2019-02-30";
    assert DateShape(s);
    assert s[5..7] == "02" && ValueOf("02") == 2;
    assert s[8..] == "30" && ValueOf("30") == 30;
  }

  /** Year zero is accepted: the year field is never read. */
  lemma AcceptsYearZero()
    ensures ValidDate("0000-01-01")
  {
    var s := "0000-01-01";
    assert DateShape(s);
    assert s[5..7] == "01" && ValueOf("01") == 1;
    assert s[8..] == "01";
  }

  /** The 31st is refused in every month, and so is month 13. */
  lemma RefusesThirtyFirstAndMonthThirteen()
    ensures !ValidDate("2019-01-31")
    ensures !ValidDate("2019-13-01")
  {
    var s := "2019-01-31";
    if DateShape(s) {
      assert s[8..] == "31" && ValueOf("31") == 31;
    }
    var t := "2019-13-01";
    if DateShape(t) {
      assert t[5..7] == "13" && ValueOf("13") == 13;
    }
  }

  /** A one-digit month is refused: the dashes must sit at 4 and 7. */
  lemma RefusesShortMonth()
    ensures !ValidDate("2019-1-01")
  {
    assert |"2019-1-01"| == 9;
  }
}

=== FILE: flight_database.dfy ===
/** The flight registry (databases/FlightDatabase.java): flights keyed by
    flight number, in insertion order. */
module FlightDatabase {
  import opened Seqs
  import opened Flights
  import opened Registry

  type Db = seq<Flight>

  function NumberOf(f: Flight): Key
  {
    f.number
  }

  /** Flight numbers are unique in the registry. */
  predicate Wellformed(db: Db)
  {
    UniqueKeys(db, NumberOf)
  }

  /** `findFlightIndex`: the position of the first flight with `f`'s number,
      or -1. */
  function FindFlightIndex(db: Db, f: Flight): (r: int)
    ensures r == -1 <==> forall i :: 0 <= i < |db| ==> db[i].number != f.number
    ensures r != -1 ==> 0 <= r < |db| && db[r].number == f.number
    ensures r != -1 ==> forall i :: 0 <= i < r ==> db[i].number != f.number
  {
    FindIndex(db, NumberOf, f.number)
  }

  /** `addItem`: replace the flight with the same number where it stands,
      or append a new one. */
  function AddItem(db: Db, f: Flight): (r: Db)
    ensures |db| <= |r| <= |db| + 1
    ensures f in r
    ensures Wellformed(db) ==> Wellformed(r)
    ensures forall i :: 0 <= i < |db| && db[i].number != f.number ==> r[i] == db[i]
    ensures GetFlight(r, f.number) == Some(f)
    ensures forall n :: n != f.number ==> GetFlight(r, n) == GetFlight(db, n)
  {
    Upsert(db, NumberOf, f)
  }

  /** `removeItem`: remove the first flight with `f`'s number and answer
      true, or answer false and change nothing. */
  function RemoveItem(db: Db, f: Flight): (r: (Db, bool))
    ensures r.1 <==> Contains(db, f.number)
    ensures !r.1 ==> r.0 == db
    ensures r.1 ==> |r.0| == |db| - 1
    ensures r.1 ==> var i := FindFlightIndex(db, f);
                    0 <= i < |db| && r.0 == db[..i] + db[i + 1..]
    ensures Wellformed(db) ==> Wellformed(r.0) && !Contains(r.0, f.number)
    ensures Wellformed(db) ==>
              forall n :: n != f.number ==> GetFlight(r.0, n) == GetFlight(db, n)
  {
    RemoveKey(db, NumberOf, f.number)
  }

  /** `getItem`: the flight at `i`, or null when `i < 0` or `i >= size`. */
  function GetItem(db: Db, i: int): (r: Option<Flight>)
    ensures r.None? <==> i < 0 || i >= |db|
    ensures r.Some? ==> r.value == db[i]
  {
    ItemAt(db, i)
  }

  /** `getFlight`: the first flight numbered `n`, or null. It is the flight
      at the index `findFlightIndex` reports. */
  function GetFlight(db: Db, n: FlightNumber): (r: Option<Flight>)
    ensures r.None? <==> forall i :: 0 <= i < |db| ==> db[i].number != n
    ensures r.Some? ==> r.value in db && r.value.number == n
    ensures r == GetItem(db, FindIndex(db, NumberOf, n))
  {
    Lookup(db, NumberOf, n)
  }

  /** `contains`: some flight is numbered `n`, exactly when `getFlight`
      finds one. */
  function Contains(db: Db, n: FlightNumber): (r: bool)
    ensures r <==> exists i :: 0 <= i < |db| && db[i].number == n
    ensures r <==> GetFlight(db, n).Some?
  {
    Registry.Contains(db, NumberOf, n)
  }

  function FromOrigin(origin: Airport): Flight -> bool
  {
    (f: Flight) => f.origin == origin
  }

  /** `getFlightsOfOrigin`: every flight leaving `origin`, each as often as
      it is stored, in registry order. */
  function GetFlightsOfOrigin(db: Db, origin: Airport): (r: seq<Flight>)
    ensures forall f :: f in r <==> f in db && f.origin == origin
    ensures |r| <= |db|
  {
    Select(db, FromOrigin(origin))
  }

  /** Each flight leaving `origin` is listed as often as it is stored. */
  lemma FlightsOfOriginCounts(db: Db, origin: Airport, f: Flight)
    requires f.origin == origin
    ensures multiset(GetFlightsOfOrigin(db, origin))[f] == multiset(db)[f]
  {
    SelectCounts(db, FromOrigin(origin), f);
  }

  /** `getFlightsOfOrigin` keeps registry order: the flights of two
      registries joined are those of the first followed by those of the
      second, and one stored flight is listed exactly when it leaves
      `origin`. With the empty registry listing nothing, this fixes the
      result completely. */
  lemma {:induction false} FlightsOfOriginInOrder(a: Db, b: Db, origin: Airport, f: Flight)
    ensures GetFlightsOfOrigin([], origin) == []
    ensures GetFlightsOfOrigin([f], origin) == if f.origin == origin then [f] else []
    ensures GetFlightsOfOrigin(a + b, origin)
            == GetFlightsOfOrigin(a, origin) + GetFlightsOfOrigin(b, origin)
  {
    SelectAppend(a, b, FromOrigin(origin));
    assert [f][1..] == [];
  }

  /** Whether a flight goes from `origin` to `destination` on `date`,
      comparing the first ten characters of its departure text. */
  predicate OnRouteAndDate(f: Flight, origin: Airport, destination: Airport, date: string)
    requires |f.departure.text| >= 10
  {
    f.origin == origin && f.destination == destination && f.departure.text[..10] == date
  }

  /** The same test as a total filter: a short departure text never
      matches. */
  function RouteAndDate(origin: Airport, destination: Airport, date: string): Flight -> bool
  {
    (f: Flight) => |f.departure.text| >= 10 && OnRouteAndDate(f, origin, destination, date)
  }

  /** `getFlights`: the flights from `origin` to `destination` departing on
      `date`, in registry order. `substring(0, 10)` throws on a departure
      text shorter than ten characters, for any stored flight before a
      match is even considered; that failure is `None`. */
  function GetFlights(db: Db, origin: Airport, destination: Airport, date: string)
    : (r: Option<seq<Flight>>)
    ensures r.None? <==> exists i :: 0 <= i < |db| && |db[i].departure.text| < 10
    ensures r.Some? ==> forall f :: f in r.value <==>
                          f in db && OnRouteAndDate(f, origin, destination, date)
    ensures r.Some? ==> r.value == Select(db, RouteAndDate(origin, destination, date))
  {
    if db == [] then Some([])
    else if |db[0].departure.text| < 10 then None
    else
      assert forall i :: 0 <= i < |db| - 1 ==> db[1..][i] == db[i + 1];
      match GetFlights(db[1..], origin, destination, date)
      case None => None
      case Some(rest) =>
        var p := RouteAndDate(origin, destination, date);
        var head := if OnRouteAndDate(db[0], origin, destination, date) then [db[0]] else [];
        assert Select(db, p) == head + Select(db[1..], p);
        assert forall f :: f in head + rest <==> f in db && OnRouteAndDate(f, origin, destination, date) by {
          assert db == [db[0]] + db[1..];
        }
        Some(head + rest)
  }
}

=== FILE: flights.dfy ===
/** A flight record and its seat ledger (backend/Flight.java).

    The source keeps `bookedSeats` inside each shared `Flight` object and
    mutates it through every itinerary that references the flight. Here the
    static part of a flight is an immutable value and the mutable counts live
    in one map from flight number to seats booked, so every holder of a flight
    sees the same count. */
module Flights {

  type FlightNumber = string
  type Airport = string

  /** A `YYYY-MM-DD HH:MM` wall-clock stamp: its text, which the date
      comparisons read, and the instant it denotes in whole minutes, which the
      wait and travel-time arithmetic reads. */
  datatype Timestamp = Timestamp(text: string, minutes: int)

  /** Cost is in cents; `numSeats` is the capacity, which the source never
      checks for being non-negative. */
  datatype Flight = Flight(
    number: FlightNumber,
    departure: Timestamp,
    arrival: Timestamp,
    airline: string,
    origin: Airport,
    destination: Airport,
    cost: int,
    numSeats: int)

  /** The `bookedSeats` of every flight, by flight number. */
  type Seats = map<FlightNumber, int>

  /** A flight nobody has booked yet has no entry: the constructor starts
      `bookedSeats` at 0. */
  function Booked(seats: Seats, n: FlightNumber): int
  {
    if n in seats then seats[n] else 0
  }

  /** `isfull`: the booked count EQUALS the capacity (not `>=`). While the
      count is within capacity that means no seat is left; above capacity
      the flight never counts as full. */
  predicate IsFull(seats: Seats, f: Flight): (r: bool)
    ensures Booked(seats, f.number) <= f.numSeats ==> (r <==> Booked(seats, f.number) >= f.numSeats)
    ensures Booked(seats, f.number) > f.numSeats ==> !r
  {
    f.numSeats == Booked(seats, f.number)
  }

  /** `bookSeat`: refuses a full flight, otherwise books one more seat. */
  function BookSeat(seats: Seats, f: Flight): (r: (Seats, bool))
    ensures r.1 <==> !IsFull(seats, f)
    ensures r.1 ==> Booked(r.0, f.number) == Booked(seats, f.number) + 1
    ensures !r.1 ==> r.0 == seats
    ensures forall n :: n != f.number ==> Booked(r.0, n) == Booked(seats, n)
  {
    if IsFull(seats, f) then (seats, false)
    else (seats[f.number := Booked(seats, f.number) + 1], true)
  }

  /** `cancelSeat`: gives one seat back, with no lower-bound guard. */
  function CancelSeat(seats: Seats, f: Flight): (r: Seats)
    ensures Booked(r, f.number) == Booked(seats, f.number) - 1
    ensures forall n :: n != f.number ==> Booked(r, n) == Booked(seats, n)
  {
    seats[f.number := Booked(seats, f.number) - 1]
  }

  /** `getWaitTime`: from this flight's arrival to `next`'s departure, in
      minutes; negative when `next` leaves before this flight lands. */
  function WaitTime(f: Flight, next: Flight): (r: int)
    ensures r < 0 <==> next.departure.minutes < f.arrival.minutes
  {
    next.departure.minutes - f.arrival.minutes
  }

  /** `Flight.equals`: flights are identified by their number alone, so a
      flight equals itself and equal flights share one seat count, whatever
      their other fields. */
  predicate SameFlight(a: Flight, b: Flight): (r: bool)
    ensures a == b ==> r
    ensures r ==> forall seats :: Booked(seats, a.number) == Booked(seats, b.number)
  {
    a.number == b.number
  }

  /** The count a flight reaches after `k` further `bookSeat` calls. */
  function BookRepeatedly(seats: Seats, f: Flight, k: nat): Seats
    decreases k
  {
    if k == 0 then seats else BookRepeatedly(BookSeat(seats, f).0, f, k - 1)
  }

  /** Starting from a new flight (no entry, so 0 booked) with a non-negative
      capacity, any number of `bookSeat` calls keeps the count within
      `0 ..= numSeats`, and it stops exactly at the capacity. */
  lemma {:induction false} BookingStaysWithinCapacity(seats: Seats, f: Flight, k: nat)
    requires 0 <= Booked(seats, f.number) <= f.numSeats
    ensures 0 <= Booked(BookRepeatedly(seats, f, k), f.number) <= f.numSeats
    ensures Booked(BookRepeatedly(seats, f, k), f.number)
         == if Booked(seats, f.number) + k <= f.numSeats then Booked(seats, f.number) + k
            else f.numSeats
    decreases k
  {
    if k > 0 {
      BookingStaysWithinCapacity(BookSeat(seats, f).0, f, k - 1);
    }
  }

  /** A new flight has nothing booked, and is full only when its capacity
      is 0. */
  lemma NewFlightIsEmpty(f: Flight)
    ensures Booked(map[], f.number) == 0
    ensures IsFull(map[], f) <==> f.numSeats == 0
  {
  }

  /** A successful `bookSeat` followed by `cancelSeat` gives back the same
      count for every flight. */
  lemma CancelUndoesBook(seats: Seats, f: Flight)
    requires !IsFull(seats, f)
    ensures forall n :: Booked(CancelSeat(BookSeat(seats, f).0, f), n) == Booked(seats, n)
  {
  }

  /** Once the capacity is lowered below the count (an edit outside the
      booking ledger), `isfull` never holds again and `bookSeat` keeps
      selling seats. */
  lemma OverCapacityNeverFull(seats: Seats, f: Flight)
    requires Booked(seats, f.number) > f.numSeats
    ensures BookSeat(seats, f).1
    ensures Booked(BookSeat(seats, f).0, f.number) > f.numSeats + 1
  {
  }
}

=== FILE: itineraries.dfy ===
/** An itinerary: an ordered sequence of legs (backend/Itinerary.java).

    The legs are the registry's flight values; their seat counts are read from
    and written to the shared `Seats` map. */
module Itineraries {
  import opened Flights
  import opened Text

  type Itinerary = seq<Flight>

  /** The layover window, in minutes: half an hour to six hours, both
      bounds allowed. */
  const MinLayover: int := 30
  const MaxLayover: int := 360

  /** The flight numbers of the legs, in order. */
  function Numbers(it: Itinerary): (r: seq<FlightNumber>)
    ensures |r| == |it|
    ensures forall i :: 0 <= i < |it| ==> r[i] == it[i].number
  {
    if it == [] then [] else [it[0].number] + Numbers(it[1..])
  }

  /** No flight number occurs twice among the legs. */
  predicate DistinctLegs(it: Itinerary)
  {
    forall i, j :: 0 <= i < j < |it| ==> it[i].number != it[j].number
  }

  // ---------------------------------------------------------------------
  // Structural equality

  /** `Itinerary.equals`: same length and, position by position, the same
      flight (by number). */
  predicate SameRoute(a: Itinerary, b: Itinerary)
  {
    |a| == |b| && forall i :: 0 <= i < |a| ==> SameFlight(a[i], b[i])
  }

  /** Two itineraries are equal exactly when their flight-number sequences
      are; so the relation is an equivalence. */
  lemma SameRouteIsSameNumbers(a: Itinerary, b: Itinerary)
    ensures SameRoute(a, b) <==> Numbers(a) == Numbers(b)
    ensures SameRoute(a, a)
    ensures SameRoute(a, b) ==> SameRoute(b, a)
    ensures forall c :: SameRoute(a, b) && SameRoute(b, c) ==> SameRoute(a, c)
  {
    if Numbers(a) == Numbers(b) {
      forall i | 0 <= i < |a| ensures SameFlight(a[i], b[i]) {
        assert Numbers(a)[i] == Numbers(b)[i];
      }
    }
  }

  // ---------------------------------------------------------------------
  // Derived values

  /** `getTotalCost`: the sum of the leg costs, in cents. */
  function TotalCost(it: Itinerary): (r: int)
    ensures it == [] ==> r == 0
    ensures (forall i :: 0 <= i < |it| ==> it[i].cost >= 0) ==> r >= 0
  {
    if it == [] then 0
    else
      assert forall i :: 0 <= i < |it| - 1 ==> it[1..][i] == it[i + 1];
      it[0].cost + TotalCost(it[1..])
  }

  /** A one-leg journey costs its flight's cost, and the total cost of a
      journey split in two is the sum of the parts; with the empty journey
      costing 0 these fix the total as the sum of the leg costs. */
  lemma {:induction false} TotalCostAppend(a: Itinerary, b: Itinerary)
    ensures |a| == 1 ==> TotalCost(a) == a[0].cost
    ensures TotalCost(a + b) == TotalCost(a) + TotalCost(b)
  {
    if |a| == 1 {
      assert a[1..] == [];
    }
    if a == [] {
      assert a + b == b;
    } else {
      assert (a + b)[1..] == a[1..] + b;
      TotalCostAppend(a[1..], b);
    }
  }

  /** `totalTravelTime`: from the first departure to the last arrival, in
      minutes. Undefined (an index error in the source) when empty. */
  function TravelTime(it: Itinerary): int
    requires |it| > 0
  {
    it[|it| - 1].arrival.minutes - it[0].departure.minutes
  }

  /** Time spent in the air, leg by leg. */
  function AirTime(it: Itinerary): int
  {
    if it == [] then 0
    else (it[0].arrival.minutes - it[0].departure.minutes) + AirTime(it[1..])
  }

  /** Time spent on the ground between consecutive legs. */
  function GroundTime(it: Itinerary): int
  {
    if |it| <= 1 then 0 else WaitTime(it[0], it[1]) + GroundTime(it[1..])
  }

  /** The travel time is the time in the air plus every layover: the two
      are an independent account of the same journey. */
  lemma {:induction false} TravelTimeIsAirPlusGround(it: Itinerary)
    requires |it| > 0
    ensures TravelTime(it) == AirTime(it) + GroundTime(it)
  {
    if |it| > 1 {
      TravelTimeIsAirPlusGround(it[1..]);
    }
  }

  /** `getStartOrigin`. */
  function StartOrigin(it: Itinerary): Airport
    requires |it| > 0
  {
    it[0].origin
  }

  /** `getFinalDestination`. */
  function FinalDestination(it: Itinerary): Airport
    requires |it| > 0
  {
    it[|it| - 1].destination
  }

  /** `split(" ")[0]` on a departure stamp: the text before the first
      space (all of it when there is none). */
  function DatePart(s: string): (r: string)
    ensures r <= s
    ensures ' ' !in r
    ensures |r| < |s| ==> s[|r|] == ' '
  {
    if s == [] || s[0] == ' ' then []
    else [s[0]] + DatePart(s[1..])
  }

  /** `getFirstDepartureDate`. */
  function FirstDepartureDate(it: Itinerary): string
    requires |it| > 0
  {
    DatePart(it[0].departure.text)
  }

  /** The derived values of a one-leg itinerary are the flight's own, and
      joining two itineraries takes its start and date from the first and
      its destination from the second; its travel time is both travel times
      plus the layover between them. */
  lemma ItineraryEnds(f: Flight, a: Itinerary, b: Itinerary)
    requires |a| > 0 && |b| > 0
    ensures StartOrigin([f]) == f.origin && FinalDestination([f]) == f.destination
    ensures TravelTime([f]) == f.arrival.minutes - f.departure.minutes
    ensures FirstDepartureDate([f]) == DatePart(f.departure.text)
    ensures StartOrigin(a + b) == StartOrigin(a) && FinalDestination(a + b) == FinalDestination(b)
    ensures FirstDepartureDate(a + b) == FirstDepartureDate(a)
    ensures TravelTime(a + b) == TravelTime(a) + WaitTime(a[|a| - 1], b[0]) + TravelTime(b)
  {
    assert (a + b)[0] == a[0] && (a + b)[|a + b| - 1] == b[|b| - 1];
  }

  // ---------------------------------------------------------------------
  // Validity checks

  /** `hasValidWaitTimes`: every layover lies in the window, bounds
      included; zero or one leg has no layover to check. */
  function HasValidWaitTimes(it: Itinerary): (r: bool)
    ensures r <==> forall i :: 0 <= i < |it| - 1 ==>
                     MinLayover <= WaitTime(it[i], it[i + 1]) <= MaxLayover
  {
    if |it| <= 1 then true
    else
      var w := WaitTime(it[0], it[1]);
      if w > MaxLayover || w < MinLayover then false
      else
        assert forall i :: 0 <= i < |it| - 1 ==> it[1..][i] == it[i + 1];
        HasValidWaitTimes(it[1..])
  }

  /** With valid layovers a journey of `n` legs spends at least
      `(n - 1) * MinLayover` minutes on the ground. */
  lemma {:induction false} ValidWaitsBoundGroundTime(it: Itinerary)
    requires HasValidWaitTimes(it)
    ensures |it| > 0 ==> GroundTime(it) >= (|it| - 1) * MinLayover
    ensures |it| > 0 ==> GroundTime(it) <= (|it| - 1) * MaxLayover
  {
    if |it| > 1 {
      assert MinLayover <= WaitTime(it[0], it[1]) <= MaxLayover;
      ValidWaitsBoundGroundTime(it[1..]);
    }
  }

  /** `flightsHaveRoom`: no leg is full. */
  function FlightsHaveRoom(seats: Seats, it: Itinerary): (r: bool)
    ensures r <==> forall i :: 0 <= i < |it| ==> !IsFull(seats, it[i])
  {
    if it == [] then true
    else if IsFull(seats, it[0]) then false
    else
      assert forall i :: 0 <= i < |it| - 1 ==> it[1..][i] == it[i + 1];
      FlightsHaveRoom(seats, it[1..])
  }

  // ---------------------------------------------------------------------
  // Booking and cancelling every leg

  /** `bookFlights`: `bookSeat` on each leg in turn, ignoring its answer.
      Each flight gains at most one seat per occurrence, and flights not on
      the itinerary are untouched. */
  function BookFlights(seats: Seats, it: Itinerary): (r: Seats)
    ensures forall n :: n !in Numbers(it) ==> Booked(r, n) == Booked(seats, n)
    ensures forall n :: Booked(seats, n) <= Booked(r, n)
                        <= Booked(seats, n) + multiset(Numbers(it))[n]
    decreases |it|
  {
    if it == [] then seats
    else
      assert Numbers(it) == [it[0].number] + Numbers(it[1..]);
      BookFlights(BookSeat(seats, it[0]).0, it[1..])
  }

  /** `cancelFlights`: `cancelSeat` on each leg in turn; every flight loses
      one seat per occurrence, with no lower bound. */
  function CancelFlights(seats: Seats, it: Itinerary): (r: Seats)
    ensures forall n :: Booked(r, n) == Booked(seats, n) - multiset(Numbers(it))[n]
    decreases |it|
  {
    if it == [] then seats
    else
      assert Numbers(it) == [it[0].number] + Numbers(it[1..]);
      CancelFlights(CancelSeat(seats, it[0]), it[1..])
  }

  /** For legs that are distinct flights with room, booking raises each
      leg's count by exactly one and leaves every other flight alone. */
  lemma {:induction false} BookFlightsDistinct(seats: Seats, it: Itinerary)
    requires DistinctLegs(it)
    requires FlightsHaveRoom(seats, it)
    ensures forall n :: Booked(BookFlights(seats, it), n)
                        == Booked(seats, n) + (if n in Numbers(it) then 1 else 0)
    decreases |it|
  {
    if it != [] {
      var first := it[0];
      var rest := it[1..];
      assert !IsFull(seats, first);
      var s1 := BookSeat(seats, first).0;
      RoomSurvivesOtherBooking(seats, it);
      BookFlightsDistinct(s1, rest);
      var r := BookFlights(s1, rest);
      assert BookFlights(seats, it) == r;
      assert first.number !in Numbers(rest) by {
        forall i | 0 <= i < |rest| ensures Numbers(rest)[i] != first.number {
          assert rest[i] == it[i + 1];
        }
      }
      assert Numbers(it) == [first.number] + Numbers(rest);
      forall n ensures Booked(r, n) == Booked(seats, n) + (if n in Numbers(it) then 1 else 0) {
        assert Booked(r, n) == Booked(s1, n) + (if n in Numbers(rest) then 1 else 0);
        assert Booked(s1, n) == Booked(seats, n) + (if n == first.number then 1 else 0);
      }
    }
  }

  /** Booking the first of distinct legs leaves the others with room and
      still distinct. */
  lemma RoomSurvivesOtherBooking(seats: Seats, it: Itinerary)
    requires it != []
    requires DistinctLegs(it)
    requires FlightsHaveRoom(seats, it)
    ensures DistinctLegs(it[1..])
    ensures FlightsHaveRoom(BookSeat(seats, it[0]).0, it[1..])
  {
    var s1 := BookSeat(seats, it[0]).0;
    var rest := it[1..];
    forall i | 0 <= i < |rest| ensures !IsFull(s1, rest[i]) {
      assert rest[i] == it[i + 1];
      assert !IsFull(seats, it[i + 1]);
      assert it[i + 1].number != it[0].number;
    }
    forall i, j | 0 <= i < j < |rest| ensures rest[i].number != rest[j].number {
      assert rest[i] == it[i + 1] && rest[j] == it[j + 1];
    }
  }

  /** Cancelling right after booking distinct legs with room restores every
      flight's count. */
  lemma CancelFlightsUndoesBookFlights(seats: Seats, it: Itinerary)
    requires DistinctLegs(it)
    requires FlightsHaveRoom(seats, it)
    ensures forall n :: Booked(CancelFlights(BookFlights(seats, it), it), n) == Booked(seats, n)
  {
    BookFlightsDistinct(seats, it);
    forall n ensures multiset(Numbers(it))[n] == (if n in Numbers(it) then 1 else 0) {
      DistinctCountsOnce(it, n);
    }
  }

  /** In a sequence of distinct legs each number occurs at most once. */
  lemma {:induction false} DistinctCountsOnce(it: Itinerary, n: FlightNumber)
    requires DistinctLegs(it)
    ensures multiset(Numbers(it))[n] == (if n in Numbers(it) then 1 else 0)
    decreases |it|
  {
    if it != [] {
      assert Numbers(it) == [it[0].number] + Numbers(it[1..]);
      assert DistinctLegs(it[1..]) by {
        assert forall i :: 0 <= i < |it| - 1 ==> it[1..][i] == it[i + 1];
      }
      DistinctCountsOnce(it[1..], n);
      if n == it[0].number {
        assert n !in Numbers(it[1..]);
      }
    }
  }

  // ---------------------------------------------------------------------
  // The HH:MM duration in `toString`

  /** A one-character part gets a leading "0"; longer ones are kept. */
  function PadTwo(s: string): string
  {
    if |s| == 1 then "0" + s else s
  }

  /** The `HH:MM` text of a duration of `m` minutes: Java's truncating
      quotient and remainder by 60, each rendered with `String.valueOf` and
      padded only when one character long. */
  function FormatDuration(m: int): string
  {
    PadTwo(IntToString(JavaDiv(m, 60))) + ":" + PadTwo(IntToString(JavaRem(m, 60)))
  }

  /** A non-negative duration renders as hours, ':' and exactly two minute
      digits, and the digits read back as the duration: hours * 60 + minutes
      is `m`, with fewer than 60 minutes. */
  lemma DurationReadsBack(m: int)
    requires m >= 0
    ensures exists h: string, mm: string ::
      && FormatDuration(m) == h + ":" + mm
      && |h| >= 2 && |mm| == 2 && AllDigits(h) && AllDigits(mm)
      && ValueOf(mm) < 60 && ValueOf(h) * 60 + ValueOf(mm) == m
  {
    var hs := NatToString(m / 60);
    var ms := NatToString(m % 60);
    if |hs| == 1 { ValueOfLeadingZero(hs); }
    if |ms| == 1 { ValueOfLeadingZero(ms); }
    var h := PadTwo(hs);
    var mm := PadTwo(ms);
    assert FormatDuration(m) == h + ":" + mm;
  }

  /** Five hours renders as "05:00", two hours five as "02:05"; a negative
      duration keeps its signs in both parts. */
  lemma DurationExamples()
    ensures FormatDuration(300) == "05:00"
    ensures FormatDuration(125) == "02:05"
    ensures FormatDuration(-90) == "-1:-30"
  {
    assert NatToString(5) == "5";
    assert NatToString(0) == "0";
    assert NatToString(2) == "2";
    assert NatToString(1) == "1";
    assert NatToString(3) == "3";
    assert NatToString(30) == "30" by {
      assert NatToString(30) == NatToString(3) + [DigitChar(0)];
    }
  }
}

=== FILE: path_finder.dfy ===
/** The recursive depth-first search over flights (`User.search` in
    backend/User.java): every origin-to-destination chain of flights that
    never departs twice from the same airport. */
module PathFinder {
  import opened Seqs
  import opened Flights
  import opened Itineraries
  import opened FlightDatabase

  /** Every airport some registry flight leaves from or flies to. */
  function Airports(db: Db): set<Airport>
  {
    (set f | f in db :: f.origin) + (set f | f in db :: f.destination)
  }

  /** The airports the search may still descend into from `here`: this set
      shrinks at every recursive call, which is why the search terminates. */
  function Unvisited(db: Db, visited: seq<Airport>, here: Airport): set<Airport>
  {
    Airports(db) - (set a | a in visited) - {here}
  }

  /** Descending into the landing airport of a registry flight, which is
      not yet on the path, removes it from the airports left to visit. */
  lemma UnvisitedShrinks(db: Db, visited: seq<Airport>, origin: Airport, f: Flight)
    requires f in db && f.destination !in visited + [origin]
    ensures Unvisited(db, visited + [origin], f.destination) < Unvisited(db, visited, origin)
  {
    assert f.destination in Airports(db);
    assert f.destination in Unvisited(db, visited, origin);
  }

  /** `subFlights.add(0, flight)` on every path found. */
  function PrependAll(f: Flight, paths: seq<Itinerary>): (r: seq<Itinerary>)
    ensures |r| == |paths|
    ensures forall i :: 0 <= i < |r| ==> r[i] == [f] + paths[i]
  {
    seq(|paths|, i requires 0 <= i < |paths| => [f] + paths[i])
  }

  /** The functional reading of `search(origin, destination, locations)`:
      the paths found from each flight leaving `origin`, in registry order. */
  function Search(db: Db, origin: Airport, destination: Airport, visited: seq<Airport>)
    : seq<Itinerary>
    decreases Unvisited(db, visited, origin), 1
  {
    Explore(db, GetFlightsOfOrigin(db, origin), origin, destination, visited)
  }

  /** One iteration per flight in `legs`, in order. */
  function Explore(db: Db, legs: seq<Flight>, origin: Airport, destination: Airport,
                   visited: seq<Airport>): seq<Itinerary>
    requires forall f :: f in legs ==> f in db
    decreases Unvisited(db, visited, origin), 0, |legs|
  {
    if legs == [] then []
    else Branch(db, legs[0], origin, destination, visited)
         + Explore(db, legs[1..], origin, destination, visited)
  }

  /** The paths through one flight `f` leaving `origin`: if it lands at the
      destination it is a path by itself; if it lands at an airport not yet
      on the path (`visited` plus `origin`) the search continues from there
      and `f` is put in front of every path found; otherwise nothing. */
  function Branch(db: Db, f: Flight, origin: Airport, destination: Airport,
                  visited: seq<Airport>): seq<Itinerary>
    requires f in db
    decreases Unvisited(db, visited, origin), 0, 0
  {
    if f.destination == destination then [[f]]
    else if f.destination !in visited + [origin] then
      UnvisitedShrinks(db, visited, origin, f);
      PrependAll(f, Search(db, f.destination, destination, visited + [origin]))
    else []
  }

  /** What the search promises about a path `p` from `origin` when the
      airports in `visited` are already on the path: it is a non-empty chain
      of registry flights from `origin` to `destination`; no two legs leave
      the same airport; no later leg leaves `origin`, a visited airport or
      the destination. */
  predicate IsRoute(db: Db, origin: Airport, destination: Airport, visited: seq<Airport>,
                    p: Itinerary)
  {
    && |p| > 0
    && (forall i :: 0 <= i < |p| ==> p[i] in db)
    && p[0].origin == origin
    && p[|p| - 1].destination == destination
    && (forall i :: 0 <= i < |p| - 1 ==> p[i].destination == p[i + 1].origin)
    && (forall i, j :: 0 <= i < j < |p| ==> p[i].origin != p[j].origin)
    && (forall i :: 1 <= i < |p| ==> p[i].origin !in visited && p[i].origin != destination)
  }

  /** Every path the search returns is a route. */
  lemma SearchSound(db: Db, origin: Airport, destination: Airport, visited: seq<Airport>,
                    p: Itinerary)
    requires p in Search(db, origin, destination, visited)
    ensures IsRoute(db, origin, destination, visited, p)
    decreases Unvisited(db, visited, origin), 1
  {
    ExploreSound(db, GetFlightsOfOrigin(db, origin), origin, destination, visited, p);
  }

  lemma ExploreSound(db: Db, legs: seq<Flight>, origin: Airport, destination: Airport,
                     visited: seq<Airport>, p: Itinerary)
    requires forall f :: f in legs ==> f in db && f.origin == origin
    requires p in Explore(db, legs, origin, destination, visited)
    ensures IsRoute(db, origin, destination, visited, p)
    decreases Unvisited(db, visited, origin), 0, |legs|
  {
    var f := legs[0];
    assert f in db && f.origin == origin;
    var rest := Explore(db, legs[1..], origin, destination, visited);
    if p in rest {
      ExploreSound(db, legs[1..], origin, destination, visited, p);
    } else if f.destination == destination {
      assert p == [f];
    } else {
      assert f.destination !in visited + [origin];
      UnvisitedShrinks(db, visited, origin, f);
      var sub := Search(db, f.destination, destination, visited + [origin]);
      assert p in PrependAll(f, sub);
      var k :| 0 <= k < |sub| && p == [f] + sub[k];
      SearchSound(db, f.destination, destination, visited + [origin], sub[k]);
      PrependKeepsRoute(db, f, origin, destination, visited, sub[k]);
    }
  }

  /** Putting a first leg from `origin` in front of a route found one level
      deeper gives a route from `origin`. */
  lemma PrependKeepsRoute(db: Db, f: Flight, origin: Airport, destination: Airport,
                          visited: seq<Airport>, q: Itinerary)
    requires f in db && f.origin == origin
    requires f.destination != destination && f.destination !in visited + [origin]
    requires IsRoute(db, f.destination, destination, visited + [origin], q)
    ensures IsRoute(db, origin, destination, visited, [f] + q)
  {
    var p := [f] + q;
    assert forall i :: 1 <= i < |p| ==> p[i] == q[i - 1];
    forall i | 1 <= i < |p| ensures p[i].origin !in visited + [origin] {
      if i > 1 {
        assert q[i - 1].origin !in visited + [origin];
      }
    }
  }

  /** Every route is among the paths the search returns. */
  lemma SearchComplete(db: Db, origin: Airport, destination: Airport, visited: seq<Airport>,
                       p: Itinerary)
    requires IsRoute(db, origin, destination, visited, p)
    ensures p in Search(db, origin, destination, visited)
    decreases Unvisited(db, visited, origin), 1
  {
    ExploreComplete(db, GetFlightsOfOrigin(db, origin), origin, destination, visited, p);
  }

  lemma ExploreComplete(db: Db, legs: seq<Flight>, origin: Airport, destination: Airport,
                        visited: seq<Airport>, p: Itinerary)
    requires forall f :: f in legs ==> f in db
    requires IsRoute(db, origin, destination, visited, p)
    requires p[0] in legs
    ensures p in Explore(db, legs, origin, destination, visited)
    decreases Unvisited(db, visited, origin), 0, |legs|
  {
    var f := legs[0];
    if f != p[0] {
      ExploreComplete(db, legs[1..], origin, destination, visited, p);
    } else if |p| == 1 {
      assert p == [f];
    } else {
      var q := p[1..];
      TailIsRoute(db, origin, destination, visited, p);
      UnvisitedShrinks(db, visited, origin, f);
      SearchComplete(db, f.destination, destination, visited + [origin], q);
      var sub := Search(db, f.destination, destination, visited + [origin]);
      var k :| 0 <= k < |sub| && sub[k] == q;
      assert p == [f] + q;
      assert PrependAll(f, sub)[k] == p;
    }
  }

  /** A route of two or more legs, minus its first leg, is a route from
      where that leg lands, with its origin now on the path. */
  lemma TailIsRoute(db: Db, origin: Airport, destination: Airport, visited: seq<Airport>,
                    p: Itinerary)
    requires IsRoute(db, origin, destination, visited, p) && |p| > 1
    ensures p[0].destination != destination && p[0].destination !in visited + [origin]
    ensures IsRoute(db, p[0].destination, destination, visited + [origin], p[1..])
  {
    var q := p[1..];
    assert p[0].destination == q[0].origin;
    assert forall i :: 0 <= i < |q| ==> q[i] == p[i + 1];
    forall i | 1 <= i < |q| ensures q[i].origin !in visited + [origin] {
      assert p[i + 1].origin != p[0].origin;
    }
  }

  /** `createItineraries` searches with an empty `locations` list. */
  function FindRoutes(db: Db, origin: Airport, destination: Airport): seq<Itinerary>
  {
    Search(db, origin, destination, [])
  }

  /** The paths found from `origin` to `destination` are exactly the simple
      chains of registry flights between them: each is non-empty, starts at
      `origin`, ends at `destination`, lands each leg where the next one
      departs, never leaves the same airport twice and never passes through
      the destination before its last leg. */
  lemma FindRoutesAreSimplePaths(db: Db, origin: Airport, destination: Airport, p: Itinerary)
    ensures p in FindRoutes(db, origin, destination) <==> IsRoute(db, origin, destination, [], p)
    ensures p in FindRoutes(db, origin, destination) ==>
              |p| > 0 && StartOrigin(p) == origin && FinalDestination(p) == destination
  {
    if p in FindRoutes(db, origin, destination) {
      SearchSound(db, origin, destination, [], p);
    }
    if IsRoute(db, origin, destination, [], p) {
      SearchComplete(db, origin, destination, [], p);
    }
  }

  /** In a registry with unique flight numbers, a route never uses the
      same flight twice, so booking it touches each flight once. */
  lemma RouteLegsDistinct(db: Db, origin: Airport, destination: Airport,
                          visited: seq<Airport>, p: Itinerary)
    requires Wellformed(db)
    requires IsRoute(db, origin, destination, visited, p)
    ensures DistinctLegs(p)
  {
    forall i, j | 0 <= i < j < |p| ensures p[i].number != p[j].number {
      var a :| 0 <= a < |db| && db[a] == p[i];
      var b :| 0 <= b < |db| && db[b] == p[j];
      assert p[i].origin != p[j].origin;
      assert a != b;
      if a < b {
        assert NumberOf(db[a]) != NumberOf(db[b]);
      } else {
        assert NumberOf(db[b]) != NumberOf(db[a]);
      }
    }
  }

  /** Every path through flight `f` starts with `f`. */
  lemma BranchFirstLeg(db: Db, f: Flight, origin: Airport, destination: Airport,
                       visited: seq<Airport>, p: Itinerary)
    requires f in db && p in Branch(db, f, origin, destination, visited)
    ensures |p| > 0 && p[0] == f
  {
    if f.destination != destination {
      var sub := Search(db, f.destination, destination, visited + [origin]);
      var i :| 0 <= i < |sub| && p == PrependAll(f, sub)[i];
    }
  }

  /** Every path the loop collects starts with one of the flights it loops
      over; the paths from different flights are kept apart by their first
      leg. */
  lemma {:induction false} ExploreFirstLeg(db: Db, legs: seq<Flight>, origin: Airport,
                                           destination: Airport, visited: seq<Airport>,
                                           p: Itinerary)
    requires forall f :: f in legs ==> f in db
    requires p in Explore(db, legs, origin, destination, visited)
    ensures |p| > 0 && p[0] in legs
    decreases |legs|
  {
    if p in Branch(db, legs[0], origin, destination, visited) {
      BranchFirstLeg(db, legs[0], origin, destination, visited, p);
    } else {
      ExploreFirstLeg(db, legs[1..], origin, destination, visited, p);
    }
  }

  /** A registry with unique flight numbers holds no flight twice. */
  lemma WellformedHasNoDuplicates(db: Db)
    requires Wellformed(db)
    ensures NoDuplicates(db)
  {
    forall i, j | 0 <= i < j < |db| ensures db[i] != db[j] {
      assert NumberOf(db[i]) != NumberOf(db[j]);
    }
  }

  /** A registry holding no flight twice makes the search return no path
      twice: the paths through different first flights differ in their
      first leg, and the paths through one flight are that flight in front
      of paths that are already distinct. */
  lemma {:induction false} SearchNoDuplicates(db: Db, origin: Airport, destination: Airport,
                                              visited: seq<Airport>)
    requires NoDuplicates(db)
    ensures NoDuplicates(Search(db, origin, destination, visited))
    decreases Unvisited(db, visited, origin), 1
  {
    SelectNoDuplicates(db, FromOrigin(origin));
    ExploreNoDuplicates(db, GetFlightsOfOrigin(db, origin), origin, destination, visited);
  }

  lemma {:induction false} ExploreNoDuplicates(db: Db, legs: seq<Flight>, origin: Airport,
                                               destination: Airport, visited: seq<Airport>)
    requires NoDuplicates(db) && NoDuplicates(legs)
    requires forall f :: f in legs ==> f in db
    ensures NoDuplicates(Explore(db, legs, origin, destination, visited))
    decreases Unvisited(db, visited, origin), 0, |legs|
  {
    if legs != [] {
      var first := Branch(db, legs[0], origin, destination, visited);
      var rest := Explore(db, legs[1..], origin, destination, visited);
      assert NoDuplicates(legs[1..]) by {
        forall i, j | 0 <= i < j < |legs| - 1 ensures legs[1..][i] != legs[1..][j] {
          assert legs[i + 1] != legs[j + 1];
        }
      }
      assert legs[0] !in legs[1..] by {
        forall k | 0 <= k < |legs| - 1 ensures legs[1..][k] != legs[0] {
          assert legs[0] != legs[k + 1];
        }
      }
      BranchNoDuplicates(db, legs[0], origin, destination, visited);
      ExploreNoDuplicates(db, legs[1..], origin, destination, visited);
      forall i, j | 0 <= i < j < |first + rest| ensures (first + rest)[i] != (first + rest)[j] {
        if j >= |first| {
          assert (first + rest)[j] == rest[j - |first|];
          if i < |first| {
            BranchFirstLeg(db, legs[0], origin, destination, visited, first[i]);
            ExploreFirstLeg(db, legs[1..], origin, destination, visited, rest[j - |first|]);
          } else {
            assert (first + rest)[i] == rest[i - |first|];
          }
        }
      }
    }
  }

  lemma {:induction false} BranchNoDuplicates(db: Db, f: Flight, origin: Airport,
                                              destination: Airport, visited: seq<Airport>)
    requires NoDuplicates(db) && f in db
    ensures NoDuplicates(Branch(db, f, origin, destination, visited))
    decreases Unvisited(db, visited, origin), 0, 0
  {
    if f.destination != destination && f.destination !in visited + [origin] {
      UnvisitedShrinks(db, visited, origin, f);
      var sub := Search(db, f.destination, destination, visited + [origin]);
      SearchNoDuplicates(db, f.destination, destination, visited + [origin]);
      var r := PrependAll(f, sub);
      forall i, j | 0 <= i < j < |r| ensures r[i] != r[j] {
        assert r[i][1..] == sub[i] && r[j][1..] == sub[j];
      }
    }
  }

  /** `search` as written, with the shared `locations` list: the origin is
      pushed before each flight is examined and popped after it, so the
      list the caller passed in is handed back unchanged, and the paths are
      those of the functional reading. */
  method SearchWithStack(db: Db, origin: Airport, destination: Airport,
                         locations: seq<Airport>)
    returns (allFlights: seq<Itinerary>, locationsAfter: seq<Airport>)
    ensures allFlights == Search(db, origin, destination, locations)
    ensures locationsAfter == locations
    decreases Unvisited(db, locations, origin), 1
  {
    var allOrigins := GetFlightsOfOrigin(db, origin);
    if |allOrigins| == 0 {
      return [], locations;
    }
    allFlights := [];
    var stack := locations;
    var k := 0;
    assert allOrigins[0..] == allOrigins;
    while k < |allOrigins|
      invariant 0 <= k <= |allOrigins|
      invariant stack == locations
      invariant allFlights + Explore(db, allOrigins[k..], origin, destination, locations)
                == Search(db, origin, destination, locations)
    {
      var pushed := stack + [origin];
      assert pushed[..|pushed| - 1] == locations;
      var found, back := VisitFlight(db, allOrigins[k], origin, destination, pushed);
      LoopStep(db, allOrigins, k, origin, destination, locations, allFlights, found);
      allFlights := allFlights + found;
      stack := back[..|back| - 1];
      k := k + 1;
    }
    locationsAfter := stack;
  }

  /** One pass of the loop in `search` with `origin` already pushed on
      `stack`: a flight to the destination is a path; a flight to an airport
      not on the stack starts a search from there; the stack comes back as
      it was handed in. */
  method VisitFlight(db: Db, flight: Flight, origin: Airport, destination: Airport,
                     stack: seq<Airport>)
    returns (found: seq<Itinerary>, stackAfter: seq<Airport>)
    requires flight in db
    requires |stack| > 0 && stack[|stack| - 1] == origin
    ensures found == Branch(db, flight, origin, destination, stack[..|stack| - 1])
    ensures stackAfter == stack
    decreases Unvisited(db, stack[..|stack| - 1], origin), 0
  {
    ghost var locations := stack[..|stack| - 1];
    assert stack == locations + [origin];
    stackAfter := stack;
    if flight.destination == destination {
      found := [[flight]];
    } else if flight.destination !in stack {
      UnvisitedShrinks(db, locations, origin, flight);
      var sub;
      sub, stackAfter := SearchWithStack(db, flight.destination, destination, stack);
      found := PrependAll(flight, sub);
    } else {
      found := [];
    }
  }

  /** The loop invariant survives one pass: appending the paths through
      flight `k` leaves the paths from the flights after it to collect. */
  lemma LoopStep(db: Db, legs: seq<Flight>, k: int, origin: Airport, destination: Airport,
                 visited: seq<Airport>, collected: seq<Itinerary>, found: seq<Itinerary>)
    requires forall f :: f in legs ==> f in db
    requires 0 <= k < |legs|
    requires collected + Explore(db, legs[k..], origin, destination, visited)
             == Search(db, origin, destination, visited)
    requires found == Branch(db, legs[k], origin, destination, visited)
    ensures (collected + found) + Explore(db, legs[k + 1..], origin, destination, visited)
            == Search(db, origin, destination, visited)
  {
    ExploreStep(db, legs, k, origin, destination, visited);
    AppendAssoc(collected, found, Explore(db, legs[k + 1..], origin, destination, visited));
  }

  /** The loop's step: the paths from the flights at `k..` are those
      through flight `k` followed by those from the flights after it. */
  lemma ExploreStep(db: Db, legs: seq<Flight>, k: int, origin: Airport, destination: Airport,
                    visited: seq<Airport>)
    requires forall f :: f in legs ==> f in db
    requires 0 <= k < |legs|
    ensures Explore(db, legs[k..], origin, destination, visited)
            == Branch(db, legs[k], origin, destination, visited)
               + Explore(db, legs[k + 1..], origin, destination, visited)
  {
    assert legs[k..][1..] == legs[k + 1..];
  }

  lemma AppendAssoc<T>(a: seq<T>, b: seq<T>, c: seq<T>)
    ensures (a + b) + c == a + (b + c)
  {
  }
}

=== FILE: registry.dfy ===
/** The keyed list behind both record stores (databases/FlightDatabase.java
    and databases/UserDatabase.java, which are the same code over flights
    keyed by number and users keyed by email). The stores are in-memory
    sequences here; their JSON files are not modelled. */
module Registry {
  import opened Seqs

  type Key = string

  /** No two items share a key. */
  predicate UniqueKeys<T>(items: seq<T>, key: T -> Key)
  {
    forall i, j :: 0 <= i < j < |items| ==> key(items[i]) != key(items[j])
  }

  /** Some item carries key `k`. */
  predicate HasKey<T>(items: seq<T>, key: T -> Key, k: Key)
  {
    exists i :: 0 <= i < |items| && key(items[i]) == k
  }

  /** `findFlightIndex` / `findUserIndex`: the index of the first item with
      key `k`, or -1 when there is none (an empty list included). */
  function FindIndex<T>(items: seq<T>, key: T -> Key, k: Key): (r: int)
    ensures -1 <= r < |items|
    ensures r == -1 <==> !HasKey(items, key, k)
    ensures r >= 0 ==> key(items[r]) == k
    ensures r >= 0 ==> forall i :: 0 <= i < r ==> key(items[i]) != k
  {
    if items == [] then -1
    else if key(items[0]) == k then 0
    else
      var r := FindIndex(items[1..], key, k);
      assert forall i :: 0 <= i < |items| - 1 ==> items[1..][i] == items[i + 1];
      if r < 0 then -1 else r + 1
  }

  /** The first index carrying key `k` is the one `FindIndex` reports. */
  lemma FindIndexIs<T>(items: seq<T>, key: T -> Key, k: Key, j: int)
    requires 0 <= j < |items| && key(items[j]) == k
    requires forall i :: 0 <= i < j ==> key(items[i]) != k
    ensures FindIndex(items, key, k) == j
  {
    assert HasKey(items, key, k);
  }

  /** `getItem`: the item at `i`, or nothing when `i` is out of range. */
  function ItemAt<T>(items: seq<T>, i: int): (r: Option<T>)
    ensures r.Some? <==> 0 <= i < |items|
    ensures r.Some? ==> r.value == items[i]
  {
    if i < 0 || i >= |items| then None else Some(items[i])
  }

  /** `getFlight` / `getUser`: the first item with key `k`, or nothing. */
  function Lookup<T>(items: seq<T>, key: T -> Key, k: Key): (r: Option<T>)
    ensures r.None? <==> !HasKey(items, key, k)
    ensures r.Some? ==> key(r.value) == k
    ensures r == ItemAt(items, FindIndex(items, key, k))
  {
    if items == [] then None
    else if key(items[0]) == k then Some(items[0])
    else
      assert forall i :: 0 <= i < |items| - 1 ==> items[1..][i] == items[i + 1];
      Lookup(items[1..], key, k)
  }

  /** `contains`: some item has key `k`; it agrees with `Lookup`. */
  function Contains<T>(items: seq<T>, key: T -> Key, k: Key): (r: bool)
    ensures r <==> HasKey(items, key, k)
    ensures r <==> Lookup(items, key, k).Some?
  {
    if items == [] then false
    else if key(items[0]) == k then true
    else
      assert forall i :: 0 <= i < |items| - 1 ==> items[1..][i] == items[i + 1];
      Contains(items[1..], key, k)
  }

  /** `addItem`: overwrite the first item with the same key in place, or
      append. The store grows by at most one, keys stay unique, a lookup of
      the new key finds the new item, and every other lookup is unchanged. */
  function Upsert<T>(items: seq<T>, key: T -> Key, x: T): (r: seq<T>)
    ensures |r| == if HasKey(items, key, key(x)) then |items| else |items| + 1
    ensures forall i :: 0 <= i < |items| && key(items[i]) != key(x) ==> r[i] == items[i]
    ensures UniqueKeys(items, key) ==> UniqueKeys(r, key)
    ensures Lookup(r, key, key(x)) == Some(x)
    ensures forall k :: k != key(x) ==> Lookup(r, key, k) == Lookup(items, key, k)
  {
    var i := FindIndex(items, key, key(x));
    if i < 0 then
      LookupAppend(items, key, x);
      items + [x]
    else
      LookupReplace(items, key, i, x);
      items[i := x]
  }

  /** Appending an item whose key is new. */
  lemma LookupAppend<T>(items: seq<T>, key: T -> Key, x: T)
    requires !HasKey(items, key, key(x))
    ensures Lookup(items + [x], key, key(x)) == Some(x)
    ensures forall k :: k != key(x) ==> Lookup(items + [x], key, k) == Lookup(items, key, k)
    ensures UniqueKeys(items, key) ==> UniqueKeys(items + [x], key)
  {
    var r := items + [x];
    FindIndexIs(r, key, key(x), |items|);
    forall k | k != key(x) ensures Lookup(r, key, k) == Lookup(items, key, k) {
      var i := FindIndex(items, key, k);
      if i >= 0 {
        FindIndexIs(r, key, k, i);
      } else {
        assert !HasKey(r, key, k);
      }
    }
  }

  /** Overwriting the first item with the new item's key. */
  lemma LookupReplace<T>(items: seq<T>, key: T -> Key, i: int, x: T)
    requires 0 <= i < |items| && i == FindIndex(items, key, key(x))
    ensures Lookup(items[i := x], key, key(x)) == Some(x)
    ensures forall k :: k != key(x) ==> Lookup(items[i := x], key, k) == Lookup(items, key, k)
    ensures UniqueKeys(items, key) ==> UniqueKeys(items[i := x], key)
  {
    var r := items[i := x];
    FindIndexIs(r, key, key(x), i);
    forall k | k != key(x) ensures Lookup(r, key, k) == Lookup(items, key, k) {
      var j := FindIndex(items, key, k);
      if j >= 0 {
        FindIndexIs(r, key, k, j);
      } else {
        assert !HasKey(r, key, k);
      }
    }
  }

  /** `removeItem`: drop the first item with key `k` and report true, or
      report false and leave the store as it was. */
  function RemoveKey<T>(items: seq<T>, key: T -> Key, k: Key): (r: (seq<T>, bool))
    ensures r.1 <==> HasKey(items, key, k)
    ensures !r.1 ==> r.0 == items
    ensures r.1 ==> var i := FindIndex(items, key, k);
                    0 <= i < |items| && r.0 == items[..i] + items[i + 1..]
    ensures r.1 ==> exists i :: 0 <= i < |items| && key(items[i]) == k
                      && (forall j :: 0 <= j < i ==> key(items[j]) != k)
                      && r.0 == items[..i] + items[i + 1..]
    ensures UniqueKeys(items, key) ==> UniqueKeys(r.0, key) && !HasKey(r.0, key, k)
    ensures UniqueKeys(items, key) ==>
              forall k' :: k' != k ==> Lookup(r.0, key, k') == Lookup(items, key, k')
  {
    var i := FindIndex(items, key, k);
    if i < 0 then (items, false)
    else
      RemoveKeepsOthers(items, key, i);
      (items[..i] + items[i + 1..], true)
  }

  /** Removing one item of a store with unique keys takes its key away and
      keeps every other lookup. */
  lemma RemoveKeepsOthers<T>(items: seq<T>, key: T -> Key, i: int)
    requires 0 <= i < |items|
    ensures UniqueKeys(items, key) ==>
              var r := items[..i] + items[i + 1..];
              && UniqueKeys(r, key) && !HasKey(r, key, key(items[i]))
              && forall k :: k != key(items[i]) ==> Lookup(r, key, k) == Lookup(items, key, k)
  {
    var r := items[..i] + items[i + 1..];
    assert forall j :: 0 <= j < i ==> r[j] == items[j];
    assert forall j :: i <= j < |r| ==> r[j] == items[j + 1];
    if UniqueKeys(items, key) {
      forall k | k != key(items[i]) ensures Lookup(r, key, k) == Lookup(items, key, k) {
        var j := FindIndex(items, key, k);
        if j < 0 {
          assert !HasKey(r, key, k);
        } else if j < i {
          FindIndexIs(r, key, k, j);
        } else {
          FindIndexIs(r, key, k, j - 1);
        }
      }
    }
  }
}

=== FILE: seqs.dfy ===
/** Small shared vocabulary: an optional value (the source's `null` results)
    and an order-preserving filter over sequences (the source's
    "loop and add the matching items to a new ArrayList" idiom). */
module Seqs {

  /** Stands for a Java reference that may be `null`. */
  datatype Option<+T> = None | Some(value: T)

  /** The items of `s` that satisfy `p`, in their original order. */
  function Select<T(!new)>(s: seq<T>, p: T -> bool): (r: seq<T>)
    ensures |r| <= |s|
    ensures forall x :: x in r <==> x in s && p(x)
  {
    if s == [] then []
    else
      assert s == [s[0]] + s[1..];
      (if p(s[0]) then [s[0]] else []) + Select(s[1..], p)
  }

  /** The filter keeps every matching item as often as it occurs and
      drops every other item. */
  lemma {:induction false} SelectCounts<T(!new)>(s: seq<T>, p: T -> bool, x: T)
    ensures multiset(Select(s, p))[x] == if p(x) then multiset(s)[x] else 0
  {
    if s != [] {
      SelectCounts(s[1..], p, x);
      assert s == [s[0]] + s[1..];
    }
  }

  /** Filtering a concatenation filters each part: with `Select([x], p)`
      this determines `Select` completely, so the result is the order
      preserving subsequence of matching items. */
  lemma {:induction false} SelectAppend<T(!new)>(a: seq<T>, b: seq<T>, p: T -> bool)
    ensures Select(a + b, p) == Select(a, p) + Select(b, p)
  {
    if a == [] {
      assert a + b == b;
    } else {
      assert (a + b)[1..] == a[1..] + b;
      SelectAppend(a[1..], b, p);
    }
  }

  /** No item occurs twice. */
  predicate NoDuplicates<T(==)>(s: seq<T>)
  {
    forall i, j :: 0 <= i < j < |s| ==> s[i] != s[j]
  }

  /** Filtering a sequence without repeats gives one without repeats. */
  lemma {:induction false} SelectNoDuplicates<T(!new)>(s: seq<T>, p: T -> bool)
    requires NoDuplicates(s)
    ensures NoDuplicates(Select(s, p))
  {
    if s != [] {
      var rest := Select(s[1..], p);
      assert NoDuplicates(s[1..]) by {
        forall i, j | 0 <= i < j < |s| - 1 ensures s[1..][i] != s[1..][j] {
          assert s[i + 1] != s[j + 1];
        }
      }
      SelectNoDuplicates(s[1..], p);
      assert s[0] !in s[1..] by {
        forall k | 0 <= k < |s| - 1 ensures s[1..][k] != s[0] {
          assert s[0] != s[k + 1];
        }
      }
      assert s[0] !in rest;
      var head := if p(s[0]) then [s[0]] else [];
      forall i, j | 0 <= i < j < |head + rest| ensures (head + rest)[i] != (head + rest)[j] {
        if i < |head| {
          assert (head + rest)[j] == rest[j - |head|];
        } else {
          assert (head + rest)[i] == rest[i - |head|];
        }
      }
    }
  }
}

=== FILE: sorting.dfy ===
/** The two itinerary sorts of backend/User.java (`sortByTravelTime`,
    `sortByTotalCost`). Both are the same insertion sort: each itinerary is
    put in front of the first already-placed one whose key is strictly
    larger, or at the end when there is none, so equal keys keep their
    input order. */
module Sorting {
  import opened Seqs
  import opened Itineraries

  /** Keys never decrease from left to right. */
  predicate SortedBy<T>(s: seq<T>, key: T -> int)
  {
    forall i, j :: 0 <= i < j < |s| ==> key(s[i]) <= key(s[j])
  }

  /** The run of key `k`: the items of `s` with that key, in order. */
  function Run<T>(s: seq<T>, key: T -> int, k: int): seq<T>
  {
    if s == [] then []
    else (if key(s[0]) == k then [s[0]] else []) + Run(s[1..], key, k)
  }

  lemma {:induction false} RunAppend<T>(a: seq<T>, b: seq<T>, key: T -> int, k: int)
    ensures Run(a + b, key, k) == Run(a, key, k) + Run(b, key, k)
  {
    if a == [] {
      assert a + b == b;
    } else {
      var ab := a + b;
      var h := if key(a[0]) == k then [a[0]] else [];
      assert ab[0] == a[0] && ab[1..] == a[1..] + b;
      RunAppend(a[1..], b, key, k);
      var x, y, z := Run(a[1..], key, k), Run(b, key, k), Run(ab, key, k);
      assert z == h + (x + y);
      assert Run(a, key, k) == h + x;
      assert h + (x + y) == (h + x) + y;
    }
  }

  /** The run of key `k` holds exactly the items with key `k`. */
  lemma {:induction false} RunMembers<T>(s: seq<T>, key: T -> int, k: int, x: T)
    ensures x in Run(s, key, k) <==> x in s && key(x) == k
  {
    if s != [] {
      RunMembers(s[1..], key, k, x);
      assert s == [s[0]] + s[1..];
    }
  }

  lemma RunSingle<T>(x: T, key: T -> int, k: int)
    ensures Run([x], key, k) == if key(x) == k then [x] else []
  {
    assert [x][1..] == [];
  }

  /** `r` lists the items of each key in the same order as `s` does: with
      equal multisets this is what a stable sort keeps. */
  ghost predicate SameRunsBy<T>(r: seq<T>, s: seq<T>, key: T -> int)
  {
    forall k :: Run(r, key, k) == Run(s, key, k)
  }

  /** One pass of the outer loop: `x` goes in front of the first item
      whose key is strictly larger, or at the end. */
  function Insert<T>(s: seq<T>, x: T, key: T -> int): (r: seq<T>)
    ensures |r| == |s| + 1
  {
    if s == [] then [x]
    else if key(x) < key(s[0]) then [x] + s
    else [s[0]] + Insert(s[1..], x, key)
  }

  lemma {:induction false} InsertPermutes<T>(s: seq<T>, x: T, key: T -> int)
    ensures multiset(Insert(s, x, key)) == multiset(s) + multiset{x}
  {
    if s != [] && key(x) >= key(s[0]) {
      InsertPermutes(s[1..], x, key);
      assert s == [s[0]] + s[1..];
    }
  }

  lemma {:induction false} InsertSorted<T>(s: seq<T>, x: T, key: T -> int)
    requires SortedBy(s, key)
    ensures SortedBy(Insert(s, x, key), key)
  {
    if s != [] && key(x) >= key(s[0]) {
      var rest := s[1..];
      assert SortedBy(rest, key);
      InsertSorted(rest, x, key);
      InsertPermutes(rest, x, key);
      var r := Insert(s, x, key);
      assert r == [s[0]] + Insert(rest, x, key);
      forall j | 0 < j < |r| ensures key(s[0]) <= key(r[j]) {
        assert r[j] in multiset(Insert(rest, x, key));
        assert r[j] in rest || r[j] == x;
      }
    }
  }

  /** Inserting into a sorted sequence puts `x` after every item of its
      own key, so each key's run gains `x` at its end. */
  lemma {:induction false} InsertStable<T>(s: seq<T>, x: T, key: T -> int, k: int)
    requires SortedBy(s, key)
    ensures Run(Insert(s, x, key), key, k) == Run(s, key, k) + Run([x], key, k)
  {
    if s == [] {
      assert Insert(s, x, key) == [] + [x];
    } else if key(x) < key(s[0]) {
      InsertFrontStable(s, x, key, k);
    } else {
      var rest := s[1..];
      assert SortedBy(rest, key);
      InsertStable(rest, x, key, k);
      var ins := Insert(s, x, key);
      assert ins[0] == s[0] && ins[1..] == Insert(rest, x, key);
      var h := if key(s[0]) == k then [s[0]] else [];
      var a, b := Run(rest, key, k), Run([x], key, k);
      assert Run(ins, key, k) == h + (a + b);
      assert Run(s, key, k) == h + a;
      assert h + (a + b) == (h + a) + b;
    }
  }

  /** `x` in front of a sorted sequence whose first key is larger: no
      item of `x`'s key follows it. */
  lemma InsertFrontStable<T>(s: seq<T>, x: T, key: T -> int, k: int)
    requires SortedBy(s, key)
    requires s != [] && key(x) < key(s[0])
    ensures Run(Insert(s, x, key), key, k) == Run(s, key, k) + Run([x], key, k)
  {
    assert Insert(s, x, key) == [x] + s;
    RunAppend([x], s, key, k);
    RunSingle(x, key, k);
    if key(x) == k {
      NoRunAboveFirst(s, key, k);
    }
  }

  /** A key below the first of a sorted sequence has an empty run. */
  lemma NoRunAboveFirst<T>(s: seq<T>, key: T -> int, k: int)
    requires SortedBy(s, key)
    requires s != [] && k < key(s[0])
    ensures Run(s, key, k) == []
  {
    if Run(s, key, k) != [] {
      var y := Run(s, key, k)[0];
      RunMembers(s, key, k, y);
    }
  }

  /** The whole sort as a left fold of `Insert`, item by item. */
  function InsertAll<T>(xs: seq<T>, key: T -> int): (r: seq<T>)
    ensures |r| == |xs|
  {
    if xs == [] then []
    else Insert(InsertAll(xs[..|xs| - 1], key), xs[|xs| - 1], key)
  }

  /** The fold is a sorted, stable permutation of its input. */
  lemma {:induction false} InsertAllSorts<T>(xs: seq<T>, key: T -> int)
    ensures multiset(InsertAll(xs, key)) == multiset(xs)
    ensures SortedBy(InsertAll(xs, key), key)
    ensures SameRunsBy(InsertAll(xs, key), xs, key)
  {
    if xs != [] {
      var init := xs[..|xs| - 1];
      var x := xs[|xs| - 1];
      InsertAllSorts(init, key);
      var s := InsertAll(init, key);
      InsertPermutes(s, x, key);
      InsertSorted(s, x, key);
      assert xs == init + [x];
      forall k ensures Run(InsertAll(xs, key), key, k) == Run(xs, key, k) {
        InsertStable(s, x, key, k);
        RunAppend(init, [x], key, k);
      }
    }
  }

  /** A sorted sequence that keeps every key's run of another sorted
      sequence IS that sequence: sortedness and stability leave the sort
      no freedom. */
  lemma {:induction false} SortedRunsDetermine<T>(a: seq<T>, b: seq<T>, key: T -> int)
    requires SortedBy(a, key) && SortedBy(b, key)
    requires SameRunsBy(a, b, key)
    ensures a == b
    decreases |a|
  {
    if a == [] || b == [] {
      EmptyRuns(a, b, key);
    } else {
      FirstOfMinimalRun(a, b, key);
      SameHead(a, b, key);
      assert SortedBy(a[1..], key) && SortedBy(b[1..], key);
      SameRunsTail(a, b, key);
      SortedRunsDetermine(a[1..], b[1..], key);
      assert a == [a[0]] + a[1..] && b == [b[0]] + b[1..];
    }
  }

  /** Only the empty sequence has the runs of the empty sequence. */
  lemma EmptyRuns<T>(a: seq<T>, b: seq<T>, key: T -> int)
    requires a == [] || b == []
    requires SameRunsBy(a, b, key)
    ensures a == [] && b == []
  {
    if a != [] {
      RunMembers(a, key, key(a[0]), a[0]);
    } else if b != [] {
      RunMembers(b, key, key(b[0]), b[0]);
    }
  }

  /** Sorted sequences with the same runs and the same first key start
      with the same item: the first of that key's run. */
  lemma SameHead<T>(a: seq<T>, b: seq<T>, key: T -> int)
    requires a != [] && b != [] && key(a[0]) == key(b[0])
    requires SameRunsBy(a, b, key)
    ensures a[0] == b[0]
  {
    var k := key(a[0]);
    assert Run(a, key, k) == Run(b, key, k);
    assert Run(a, key, k) == [a[0]] + Run(a[1..], key, k);
    assert Run(b, key, k) == [b[0]] + Run(b[1..], key, k);
    assert Run(a, key, k)[0] == a[0] && Run(b, key, k)[0] == b[0];
  }

  /** Dropping the same first item keeps the runs equal. */
  lemma SameRunsTail<T>(a: seq<T>, b: seq<T>, key: T -> int)
    requires a != [] && b != [] && a[0] == b[0]
    requires SameRunsBy(a, b, key)
    ensures SameRunsBy(a[1..], b[1..], key)
  {
    forall k ensures Run(a[1..], key, k) == Run(b[1..], key, k) {
      assert Run(a, key, k) == Run(b, key, k);
      var h := if key(a[0]) == k then [a[0]] else [];
      assert Run(a, key, k) == h + Run(a[1..], key, k);
      assert Run(b, key, k) == h + Run(b[1..], key, k);
      assert Run(a[1..], key, k) == (h + Run(a[1..], key, k))[|h|..];
      assert Run(b[1..], key, k) == (h + Run(b[1..], key, k))[|h|..];
    }
  }

  /** Two non-empty sorted sequences with the same runs start with the
      same key: each first item's key occurs in the other sequence, where
      no key is smaller than its first. */
  lemma FirstOfMinimalRun<T>(a: seq<T>, b: seq<T>, key: T -> int)
    requires a != [] && b != []
    requires SortedBy(a, key) && SortedBy(b, key)
    requires SameRunsBy(a, b, key)
    ensures key(a[0]) == key(b[0])
  {
    assert Run(a, key, key(a[0])) == Run(b, key, key(a[0]));
    assert Run(a, key, key(b[0])) == Run(b, key, key(b[0]));
    RunMembers(a, key, key(a[0]), a[0]);
    RunMembers(b, key, key(a[0]), a[0]);
    RunMembers(b, key, key(b[0]), b[0]);
    RunMembers(a, key, key(b[0]), b[0]);
    var i :| 0 <= i < |b| && b[i] == a[0];
    var j :| 0 <= j < |a| && a[j] == b[0];
    assert key(b[0]) <= key(b[i]);
    assert key(a[0]) <= key(a[j]);
  }

  /** The inner loop: the index of the first placed item whose key is
      strictly larger than `x`'s, or the end of the list. */
  method FindSlot<T>(placed: seq<T>, x: T, key: T -> int) returns (i: nat)
    ensures i <= |placed|
    ensures forall j :: 0 <= j < i ==> key(placed[j]) <= key(x)
    ensures i < |placed| ==> key(x) < key(placed[i])
  {
    i := 0;
    while i < |placed|
      invariant i <= |placed|
      invariant forall j :: 0 <= j < i ==> key(placed[j]) <= key(x)
    {
      if key(x) < key(placed[i]) {
        return;
      }
      i := i + 1;
    }
  }

  /** Putting `x` at the slot `FindSlot` reports is `Insert`. */
  lemma {:induction false} InsertAtSlot<T>(s: seq<T>, x: T, key: T -> int, i: nat)
    requires i <= |s|
    requires forall j :: 0 <= j < i ==> key(s[j]) <= key(x)
    requires i < |s| ==> key(x) < key(s[i])
    ensures s[..i] + [x] + s[i..] == Insert(s, x, key)
    decreases i
  {
    if i > 0 {
      InsertAtSlot(s[1..], x, key, i - 1);
      assert s[..i] + [x] + s[i..] == [s[0]] + (s[1..][..i - 1] + [x] + s[1..][i - 1..]);
    }
  }

  /** `sortByTravelTime` / `sortByTotalCost` over any integer key: a new
      list built by inserting each item in turn. The result is a
      permutation of the input, sorted, and stable. */
  method InsertionSort<T>(xs: seq<T>, key: T -> int) returns (r: seq<T>)
    ensures multiset(r) == multiset(xs)
    ensures SortedBy(r, key)
    ensures SameRunsBy(r, xs, key)
  {
    r := [];
    var k := 0;
    while k < |xs|
      invariant k <= |xs|
      invariant r == InsertAll(xs[..k], key)
    {
      var x := xs[k];
      if r == [] {
        r := [x];
      } else {
        var i := FindSlot(r, x, key);
        InsertAtSlot(r, x, key, i);
        r := r[..i] + [x] + r[i..];
      }
      assert xs[..k + 1][..k] == xs[..k];
      k := k + 1;
    }
    assert xs[..k] == xs;
    InsertAllSorts(xs, key);
  }

  /** `sortByTotalCost`. */
  method SortByTotalCost(xs: seq<Itinerary>) returns (r: seq<Itinerary>)
    ensures multiset(r) == multiset(xs)
    ensures forall i, j :: 0 <= i < j < |r| ==> TotalCost(r[i]) <= TotalCost(r[j])
    ensures SameRunsBy(r, xs, TotalCost)
  {
    r := InsertionSort(xs, TotalCost);
  }

  /** The travel time as a total key; an empty itinerary never reaches it. */
  function TravelKey(it: Itinerary): int
  {
    if it == [] then 0 else TravelTime(it)
  }

  /** `sortByTravelTime`. The source compares travel times in hours as
      doubles; minutes order the same way. With two or more itineraries
      every one has its travel time computed, which throws on an empty
      itinerary: that failure is `None`. */
  method SortByTravelTime(xs: seq<Itinerary>) returns (r: Option<seq<Itinerary>>)
    ensures r.None? <==> |xs| >= 2 && exists i :: 0 <= i < |xs| && xs[i] == []
    ensures r.Some? ==> multiset(r.value) == multiset(xs)
    ensures r.Some? ==> forall i, j :: 0 <= i < j < |r.value| ==>
                          |r.value[i]| > 0 && |r.value[j]| > 0
                          && TravelTime(r.value[i]) <= TravelTime(r.value[j])
    ensures r.Some? ==> SameRunsBy(r.value, xs, TravelKey)
  {
    if |xs| >= 2 && exists i :: 0 <= i < |xs| && xs[i] == [] {
      return None;
    }
    var sorted := InsertionSort(xs, TravelKey);
    assert |sorted| == |multiset(sorted)| == |multiset(xs)| == |xs|;
    if |xs| >= 2 {
      forall i | 0 <= i < |sorted| ensures |sorted[i]| > 0 {
        assert sorted[i] in multiset(xs);
      }
    }
    forall i, j | 0 <= i < j < |sorted|
      ensures |sorted[i]| > 0 && |sorted[j]| > 0 && TravelTime(sorted[i]) <= TravelTime(sorted[j])
    {
      assert TravelKey(sorted[i]) <= TravelKey(sorted[j]);
    }
    r := Some(sorted);
  }
}

=== FILE: text.dfy ===
/** Decimal digits and Java's integer rendering and division, as far as the
    date check and the `HH:MM` duration text need them. */
module Text {

  predicate IsDigit(c: char)
  {
    '0' <= c <= '9'
  }

  predicate AllDigits(s: string)
  {
    forall i :: 0 <= i < |s| ==> IsDigit(s[i])
  }

  function DigitChar(d: nat): (c: char)
    requires d < 10
    ensures IsDigit(c)
  {
    (('0' as int) + d) as char
  }

  function DigitValue(c: char): (d: nat)
    requires IsDigit(c)
    ensures d < 10 && DigitChar(d) == c
  {
    (c as int) - ('0' as int)
  }

  /** `Integer.valueOf` on a string of decimal digits. */
  function ValueOf(s: string): nat
    requires AllDigits(s)
  {
    if s == [] then 0 else ValueOf(s[..|s| - 1]) * 10 + DigitValue(s[|s| - 1])
  }

  /** `String.valueOf` of a non-negative number: the shortest decimal text,
      which reads back as the number. */
  function NatToString(n: nat): (r: string)
    ensures AllDigits(r) && ValueOf(r) == n
    ensures 1 <= |r|
    ensures |r| == 1 <==> n < 10
    ensures r[0] == '0' ==> n == 0
    decreases n
  {
    if n < 10 then [DigitChar(n)]
    else
      var r := NatToString(n / 10) + [DigitChar(n % 10)];
      assert r[..|r| - 1] == NatToString(n / 10);
      r
  }

  /** A leading "0" does not change what a digit string reads as. */
  lemma {:induction false} ValueOfLeadingZero(s: string)
    requires AllDigits(s)
    ensures AllDigits("0" + s) && ValueOf("0" + s) == ValueOf(s)
    decreases |s|
  {
    if s != [] {
      var z := "0" + s;
      assert z[..|z| - 1] == "0" + s[..|s| - 1];
      ValueOfLeadingZero(s[..|s| - 1]);
    }
  }

  /** `String.valueOf(long)`: a minus sign in front of negative numbers. */
  function IntToString(n: int): (r: string)
    ensures n >= 0 ==> AllDigits(r) && ValueOf(r) == n
    ensures n < 0 ==> |r| >= 2 && r[0] == '-' && AllDigits(r[1..]) && ValueOf(r[1..]) == -n
  {
    if n < 0 then "-" + NatToString(-n) else NatToString(n)
  }

  /** Java's `/` on a positive divisor, which truncates toward zero (Dafny's
      `/` is Euclidean): `b * q` is the multiple of `b` nearest to `a` on
      the zero side, so `q` is the quotient rounded toward zero. */
  function JavaDiv(a: int, b: int): (q: int)
    requires b > 0
    ensures 0 <= a ==> 0 <= b * q <= a < b * q + b
    ensures a < 0 ==> b * q - b < a <= b * q <= 0
  {
    var n := if a >= 0 then a else -a;
    var d := n / b;
    assert n == b * d + n % b && 0 <= n % b < b;
    assert 0 <= d;
    if a >= 0 then d
    else
      assert b * -d == -(b * d);
      -d
  }

  /** Java's `%` on a positive divisor: the remainder has the dividend's
      sign. */
  function JavaRem(a: int, b: int): (r: int)
    requires b > 0
    ensures a == b * JavaDiv(a, b) + r
    ensures a >= 0 ==> 0 <= r < b
    ensures a < 0 ==> -b < r <= 0
  {
    a - b * JavaDiv(a, b)
  }
}

=== FILE: user_database.dfy ===
/** The user registry (databases/UserDatabase.java): users keyed by email,
    in insertion order. */
module UserDatabase {
  import opened Seqs
  import opened Registry
  import opened Users

  type UserDb = seq<User>

  function EmailOf(u: User): Key
  {
    u.email
  }

  /** Emails are unique in the registry. */
  predicate Wellformed(db: UserDb)
  {
    UniqueKeys(db, EmailOf)
  }

  /** `findUserIndex`: the position of the first user with `u`'s email, or
      -1 (also for an empty registry). */
  function FindUserIndex(db: UserDb, u: User): (r: int)
    ensures r == -1 <==> forall i :: 0 <= i < |db| ==> db[i].email != u.email
    ensures r != -1 ==> 0 <= r < |db| && db[r].email == u.email
    ensures r != -1 ==> forall i :: 0 <= i < r ==> db[i].email != u.email
  {
    FindIndex(db, EmailOf, u.email)
  }

  /** `addItem`: overwrite the user with the same email in place, or
      append. */
  function AddItem(db: UserDb, u: User): (r: UserDb)
    ensures |db| <= |r| <= |db| + 1
    ensures u in r
    ensures Wellformed(db) ==> Wellformed(r)
    ensures forall i :: 0 <= i < |db| && db[i].email != u.email ==> r[i] == db[i]
    ensures GetUser(r, u.email) == Some(u)
    ensures forall e :: e != u.email ==> GetUser(r, e) == GetUser(db, e)
  {
    Upsert(db, EmailOf, u)
  }

  /** `removeItem`: remove the first user with `u`'s email and answer true,
      or answer false and change nothing. */
  function RemoveItem(db: UserDb, u: User): (r: (UserDb, bool))
    ensures r.1 <==> Contains(db, u.email)
    ensures !r.1 ==> r.0 == db
    ensures r.1 ==> |r.0| == |db| - 1
    ensures r.1 ==> var i := FindUserIndex(db, u);
                    0 <= i < |db| && r.0 == db[..i] + db[i + 1..]
    ensures Wellformed(db) ==> Wellformed(r.0) && !Contains(r.0, u.email)
    ensures Wellformed(db) ==>
              forall e :: e != u.email ==> GetUser(r.0, e) == GetUser(db, e)
  {
    RemoveKey(db, EmailOf, u.email)
  }

  /** `getItem`: the user at `i`, or null when `i` is out of range. */
  function GetItem(db: UserDb, i: int): (r: Option<User>)
    ensures r.None? <==> i < 0 || i >= |db|
    ensures r.Some? ==> r.value == db[i]
  {
    ItemAt(db, i)
  }

  /** `getUser`: the first user with email `e`, or null; it is the user at
      the index `findUserIndex` reports. */
  function GetUser(db: UserDb, e: string): (r: Option<User>)
    ensures r.None? <==> forall i :: 0 <= i < |db| ==> db[i].email != e
    ensures r.Some? ==> r.value in db && r.value.email == e
    ensures r == GetItem(db, FindIndex(db, EmailOf, e))
  {
    Lookup(db, EmailOf, e)
  }

  /** `contains`: some user has email `e`, exactly when `getUser` finds
      one. */
  function Contains(db: UserDb, e: string): (r: bool)
    ensures r <==> exists i :: 0 <= i < |db| && db[i].email == e
    ensures r <==> GetUser(db, e).Some?
  {
    Registry.Contains(db, EmailOf, e)
  }

  function IsClient(u: User): bool
  {
    !u.isAdmin
  }

  function IsAdmin(u: User): bool
  {
    u.isAdmin
  }

  /** `getAllClients`: the users that are not administrators, in order. */
  function GetAllClients(db: UserDb): (r: seq<User>)
    ensures forall u :: u in r <==> u in db && !u.isAdmin
  {
    Select(db, IsClient)
  }

  /** `getAllAdmins`: the administrators, in order. */
  function GetAllAdmins(db: UserDb): (r: seq<User>)
    ensures forall u :: u in r <==> u in db && u.isAdmin
  {
    Select(db, IsAdmin)
  }

  /** Both lists keep registry order: for two registries joined, each list
      is that of the first followed by that of the second, and one stored
      user is listed as a client or as an administrator according to the
      flag. With the empty registry listing nothing, this fixes both
      results completely. */
  lemma {:induction false} ClientsAndAdminsInOrder(a: UserDb, b: UserDb, u: User)
    ensures GetAllClients([]) == [] && GetAllAdmins([]) == []
    ensures GetAllClients([u]) == if u.isAdmin then [] else [u]
    ensures GetAllAdmins([u]) == if u.isAdmin then [u] else []
    ensures GetAllClients(a + b) == GetAllClients(a) + GetAllClients(b)
    ensures GetAllAdmins(a + b) == GetAllAdmins(a) + GetAllAdmins(b)
  {
    SelectAppend(a, b, IsClient);
    SelectAppend(a, b, IsAdmin);
    assert [u][1..] == [];
  }

  /** Clients and administrators split the registry: together they are
      every stored user, each as often as stored, and none is both. */
  lemma ClientsAndAdminsPartition(db: UserDb)
    ensures multiset(GetAllClients(db)) + multiset(GetAllAdmins(db)) == multiset(db)
    ensures |GetAllClients(db)| + |GetAllAdmins(db)| == |db|
    ensures forall u :: !(u in GetAllClients(db) && u in GetAllAdmins(db))
  {
    var c, a := GetAllClients(db), GetAllAdmins(db);
    forall u ensures (multiset(c) + multiset(a))[u] == multiset(db)[u] {
      SelectCounts(db, IsClient, u);
      SelectCounts(db, IsAdmin, u);
    }
    assert multiset(c) + multiset(a) == multiset(db);
    assert |multiset(c) + multiset(a)| == |c| + |a|;
  }
}

=== FILE: users.dfy ===
/** A user account (backend/User.java) and the itinerary search it runs
    (`createItineraries`). Names, address and card details are carried by
    the source but play no part in any operation modelled here. */
module Users {
  import opened Seqs
  import opened Flights
  import opened Itineraries
  import opened FlightDatabase
  import opened PathFinder
  import opened Booking

  /** `itineraryList` holds search results; `booked` the booked
      itineraries. A new user starts with both empty. */
  datatype User = User(
    email: string,
    isAdmin: bool,
    itineraryList: seq<Itinerary>,
    booked: seq<Itinerary>)

  /** The constructor: a new user has no search results and has booked
      nothing, so no itinerary counts as booked for them. */
  function NewUser(email: string, isAdmin: bool): (u: User)
    ensures u.email == email && u.isAdmin == isAdmin
    ensures |u.itineraryList| == 0
    ensures forall it :: !IsBooked(u.booked, it)
  {
    User(email, isAdmin, [], [])
  }

  /** A new user's first booking is refused only for a full leg, and a
      fresh ledger is consistent with their (empty) bookings. */
  lemma NewUserCanBook(db: Db, seats: Seats, email: string, isAdmin: bool, it: Itinerary)
    ensures BookItinerary(seats, NewUser(email, isAdmin).booked, it).2 <==> FlightsHaveRoom(seats, it)
    ensures (forall f :: f in db ==> f.numSeats >= 0) ==>
              Consistent(db, map[], NewUser(email, isAdmin).booked)
  {
    if forall f :: f in db ==> f.numSeats >= 0 {
      InitiallyConsistent(db);
    }
  }

  /** The test `createItineraries` puts each found path through: not
      empty, first departure on `date` (the text before the first space),
      every layover in the window, and a seat left on every leg. */
  predicate Wanted(seats: Seats, date: string, it: Itinerary)
  {
    |it| > 0 && FirstDepartureDate(it) == date && HasValidWaitTimes(it)
    && FlightsHaveRoom(seats, it)
  }

  function WantedOn(seats: Seats, date: string): Itinerary -> bool
  {
    (it: Itinerary) => Wanted(seats, date, it)
  }

  /** `createItineraries`: search from `origin` to `destination` and APPEND
      the wanted paths, in search order, to the itineraries already listed
      (the list is never cleared). The appended ones are exactly the simple
      routes of the registry between the two airports that pass the test,
      and with unique flight numbers none of them is appended twice. */
  function CreateItineraries(db: Db, seats: Seats, u: User, date: string,
                             origin: Airport, destination: Airport): (r: User)
    ensures r.email == u.email && r.isAdmin == u.isAdmin && r.booked == u.booked
    ensures |u.itineraryList| <= |r.itineraryList|
    ensures r.itineraryList[..|u.itineraryList|] == u.itineraryList
    ensures forall it :: it in r.itineraryList[|u.itineraryList|..] <==>
              IsRoute(db, origin, destination, [], it) && Wanted(seats, date, it)
    ensures forall it :: it in r.itineraryList[|u.itineraryList|..] ==>
              |it| > 0 && StartOrigin(it) == origin && FinalDestination(it) == destination
              && FirstDepartureDate(it) == date
    ensures Wellformed(db) ==>
              forall it :: it in r.itineraryList[|u.itineraryList|..] ==> DistinctLegs(it)
    ensures r.itineraryList[|u.itineraryList|..]
            == Select(FindRoutes(db, origin, destination), WantedOn(seats, date))
    ensures Wellformed(db) ==> NoDuplicates(r.itineraryList[|u.itineraryList|..])
  {
    var found := Select(FindRoutes(db, origin, destination), WantedOn(seats, date));
    forall it ensures it in found <==> IsRoute(db, origin, destination, [], it) && Wanted(seats, date, it) {
      FindRoutesAreSimplePaths(db, origin, destination, it);
    }
    RoutesDistinct(db, origin, destination, found);
    WantedRoutesOnce(db, seats, date, origin, destination);
    var r := u.(itineraryList := u.itineraryList + found);
    assert r.itineraryList[|u.itineraryList|..] == found;
    r
  }

  /** With unique flight numbers, no wanted route is found twice. */
  lemma WantedRoutesOnce(db: Db, seats: Seats, date: string, origin: Airport, destination: Airport)
    ensures Wellformed(db) ==>
              NoDuplicates(Select(FindRoutes(db, origin, destination), WantedOn(seats, date)))
  {
    if Wellformed(db) {
      WellformedHasNoDuplicates(db);
      SearchNoDuplicates(db, origin, destination, []);
      SelectNoDuplicates(FindRoutes(db, origin, destination), WantedOn(seats, date));
    }
  }

  lemma RoutesDistinct(db: Db, origin: Airport, destination: Airport, found: seq<Itinerary>)
    requires forall it :: it in found ==> IsRoute(db, origin, destination, [], it)
    ensures Wellformed(db) ==> forall it :: it in found ==> DistinctLegs(it)
  {
    if Wellformed(db) {
      forall it | it in found ensures DistinctLegs(it) {
        RouteLegsDistinct(db, origin, destination, [], it);
      }
    }
  }
}
